=== FILE: README.md ===
# Maze shooter game logic in Dafny

This project models the game logic of a single-page first-person maze
shooter (`script.js`). The page carves a random 16 x 16 maze and searches it
for the farthest cell, which becomes the exit. It scatters three enemies,
moves the player with a square collision footprint, and flies bullets that
kill enemies. A small session state machine drives all of this: start,
pause, a one-second countdown, level completion and the EXIT button. The
HUD shows the remaining time as `m:ss`.

Randomness, trigonometry and input are parameters of the model:

- `Math.random()` is an oracle `rng: nat -> real` with values in `[0, 1)`,
  read one draw at a time.
- `Math.cos` and `Math.sin` are a `Trig` pair of functions.
- The keys held and the mouse movement are arguments.

JavaScript behaviour that matters is written out:

- Indexing a missing maze row throws a `TypeError` (the `Outcome` datatype).
- A column past the end of a row reads `undefined`, which is neither 0 nor 1.
- `&&` short-circuits.
- `v|0` is ECMAScript ToInt32: it truncates toward zero, then wraps to 32 bits.

Modules, in dependency order:

- `Common`: `Option`, `Outcome`, the random and trigonometric oracles.
- `Grid`: cells, positions, the maze array, carving one cell, and routes from the start cell (1, 1).
- `ExitSearch`: the breadth-first search for the exit.
- `Maze`: the depth-first carve and `generateMaze`.
- `Enemies`: `spawnEnemies`, and the per-frame enemy clocks.
- `Movement`: `canMove`, the four key branches, and mouse steering.
- `Bullets`: firing and `updateBullets`, as written and corrected.
- `Game`: the end-of-frame completion test.
- `Session`: score, level, time, started and paused across events.
- `Clock`: the HUD time string.

## Model

| member | source | states |
|---|---|---|
| Common.Pick | script.js:77 | `Math.floor(Math.random()*n)` is a valid index: `0 <= i < n`, and it is the whole part of `r*n` |
| Grid.Carve | script.js:78-79 | writing 0 into a cell opens exactly that cell: every other cell keeps whether it is open and whether it is a wall, and the array keeps its 16 x 16 shape |
| Grid.RouteCoversDistance | script.js:99-103 | a walk of `n` one-cell steps from (1, 1) ends at Manhattan distance at most `n`, so search depth bounds distance |
| Maze.Keep | script.js:70-73 | the `dirs.filter` result holds exactly the directions whose target is strictly inside the border and still a wall |
| Maze.KeepAppend | script.js:70-73 | filtering a concatenation is the concatenation of the filters, so the filter keeps the order of `dirs` |
| Maze.CarveStep | script.js:69-81 | one turn keeps the carving invariant: the start is open, only room and passage cells are open, stack entries are open rooms, each open room is on the stack or has no fresh neighbour, every open cell is reachable from (1, 1). It also keeps the open cells a tree over the open rooms. The turn strictly decreases twice the number of walls plus the stack height, so the loop ends |
| Maze.CarveMaze | script.js:60-81 | after the loop the maze is 16 x 16; only cells with coordinates in 1..13 and an odd coordinate are open, so the border, row 14 and column 14 stay walls; every room (odd, odd) is open; every open cell is 4-connected to (1, 1); the maze is perfect: every open passage joins two open rooms and there is exactly one passage fewer than rooms, so the rooms and passages form a spanning tree |
| Maze.Flanks | script.js:77-79 | a passage cell lies between two distinct rooms, one on each side |
| Maze.TreeStarts | script.js:60-67 | the walled block with only (1, 1) open is a tree of one room and no passage |
| Maze.TreeKept | script.js:76-80 | a carve opens a passage that was a wall and a room that was a wall, and the passage joins the room it came from to the new room: one more passage, one more room, and still a tree |
| Maze.CountsGrow | script.js:78-79 | opening one passage cell and one room cell adds exactly one to each count |
| Maze.RoomsOpen | script.js:69-81 | once no open room has a fresh neighbour, every room is open |
| Maze.GenerateMaze | script.js:59-108 | carving then searching gives a perfect maze (as for `CarveMaze`) and an exit that is a walkable cell other than (1, 1), reachable in its recorded depth, at least as deep as the opposite room (13, 13) is far, and a farthest cell: every open cell is reachable in at most the exit's depth, and no route to the exit is shorter than that depth |
| ExitSearch.FindExit | script.js:89-106 | the queue starts at (1, 1) with depth 0; each cell is queued at most once; each queued depth is realised by a route; every reachable cell is queued no deeper than any route to it; the exit is the first queued entry of the greatest depth (strict `>`), and its cell is the start or walkable; so the exit's depth is its shortest-route distance and no reachable cell is farther |
| ExitSearch.Farthest | script.js:94-98 | a complete search order whose exit is a deepest entry names a cell at the greatest shortest-route distance from the start |
| ExitSearch.QueueNeighbours | script.js:99-105 | the inner loop queues exactly the unvisited walkable neighbours of the dequeued cell at depth + 1, and marks them visited |
| ExitSearch.Dequeue | script.js:94-98 | one `shift`, the `farthest` update and the queueing of neighbours keep the search invariant: depths along the queue never decrease, expanded cells have all walkable neighbours queued, every depth is a route length, and `farthest` is the first dequeued entry of greatest depth; the number of unreached cells drops or the queue is unchanged |
| ExitSearch.ShortestBound | script.js:94-105 | after the search, every cell reachable in `n` steps was queued at depth at most `n` |
| ExitSearch.ExitIsStartIff | script.js:92-98 | the exit stays the start cell exactly when the start has no walkable neighbour |
| Enemies.Newborn | script.js:124 | a pushed enemy sits at the centre of its cell, alive, with both clocks at 0 |
| Enemies.Sample | script.js:121-122 | every attempted cell has both coordinates in 1..14 |
| Enemies.SpawnEnemies | script.js:115-128 | a successful run places exactly three enemies whatever `num` is; each is a newborn at an open cell with 1 ≤ x ≤ 14 and 1 ≤ y ≤ 14 (inside the border) and off row 1 and column 1; it uses two draws per attempt |
| Enemies.SpawnShape | script.js:119-127 | the loop only ever pushes newborns on eligible cells and never more than three |
| Enemies.SpawnIsFirstThree | script.js:119-127 | the loop (`Enemies.Spawn`) succeeds within its attempts exactly when at least three attempts hit eligible cells, and the enemies are then the first three such cells in draw order |
| Enemies.SpawnAccepts | script.js:119-127 | the same statement for the loop started part-way, with some enemies already placed |
| Enemies.SpawnMoreFuel | script.js:119 | a placement that succeeds with some number of attempts is unchanged by allowing more |
| Enemies.SharedCell | script.js:121-125 | nothing stops two enemies sharing a cell: a generator that always returns 0.15 puts all three on (3, 3) |
| Enemies.Age | script.js:515-518 | a living enemy's `time` grows by `dt` and its `hitTime` becomes `max(0, hitTime - dt)`; dead enemies are untouched |
| Enemies.AgeCountsDown | script.js:517-518 | for `dt >= 0` every flash countdown stays in `[0, old value]` and nobody dies |
| Enemies.AgeKeepsAlive | script.js:515-516 | ageing leaves the number of living enemies unchanged |
| Enemies.AgeNoFlash | script.js:515-518 | a living enemy that shows no flash still shows none after ageing |
| Enemies.SpawnNoFlash | script.js:124 | freshly placed enemies show no flash |
| Movement.CanMoveMeansClear | script.js:453-460 | `canMove(nx, ny)` (`Movement.CanMove`) returns true exactly when all four footprint corners at `floor(n +- 0.18)` are open; it throws only when one of its two rows is missing |
| Movement.CentreIsClear | script.js:453-460 | a player at the centre of an open cell fits its footprint |
| Movement.Branch | script.js:463-468 | a key branch moves x only if the footprint fits at the new x; it then moves y only if it fits at the new y with the possibly updated x; it records the facing angle only when an axis moved; the view angle is untouched; it throws only on a missing row |
| Movement.BranchStaysClear | script.js:463-468 | a branch from a clear position ends at a clear position |
| Movement.BranchNeverThrows | script.js:453-468 | in a maze with walls all round, a branch from a clear position with a y step of at most one cell never throws |
| Movement.LongStepThrows | script.js:446-468 | a step of two cells towards row 0 from the start cell reads `maze[-1]` and throws |
| Movement.Maybe | script.js:463-489 | a branch runs only while its key is held; a throw aborts the rest of the frame; clearance is kept |
| Movement.Walk | script.js:463-489 | the four branches in order never move a clear player into a wall, do nothing with no key held, keep the view angle, and never throw for steps of at most one cell |
| Movement.ShortStepsStayShort | script.js:450-487 | with sine in [-1, 1] and `move` in [0, 1], every y step is at most one cell |
| Movement.Respawn | script.js:86-87 | maze generation puts the player in the start cell (1, 1) and keeps the heading |
| Movement.RespawnIsClear | script.js:53-87 | the start point (1.5, 1.5) is clear of walls in any maze whose start cell is open |
| Movement.Steer | script.js:491 | mouse movement turns the view by `mouseDX / 500` and does not move the player |
| Bullets.Fire | script.js:131-140 | a press while the game is started, even if paused, appends one bullet with the aim angle and speed 10; otherwise nothing changes |
| Bullets.ToInt32 | script.js:160 | `v|0` lies in the signed 32-bit range, agrees with truncation toward zero modulo 2^32, and equals it when it fits |
| Bullets.TruncatesTowardZero | script.js:160 | `-0.5|0` is row 0, not row -1 |
| Bullets.BlockedInside | script.js:160 | the wall test `Bullets.Blocked` (a missing row, or a wall at the ToInt32 cell): inside the maze, a bullet is stopped exactly by a wall cell |
| Bullets.Advance | script.js:158-159 | moving a bullet keeps its angle and speed, and a zero-length frame leaves it in place |
| Bullets.Splice | script.js:161-169 | `splice(i, 1)` removes exactly entry `i` when it exists and otherwise changes nothing |
| Bullets.Cut | script.js:161-169 | `n` removals at `i` keep the entries before `i` and drop `n` entries from `i` on, or all of them when fewer remain |
| Bullets.CutSplice | script.js:161-169 | no removal keeps the array, and one more `splice(i, 1)` is one more cut |
| Bullets.CutSkipsSlot | script.js:158-169 | the bullet moved in slot `i` before the splices does not change what they leave |
| Bullets.AliveAfterKill | script.js:166-167 | killing a living enemy lowers the living count by one |
| Bullets.KillOne | script.js:166-167 | a single kill only turns that enemy into a flashing dead one, and lowers the living count by one |
| Bullets.CasualtiesCount | script.js:164-175 | a bullet pass never raises the living count, and one that leaves the count unchanged has changed no enemy |
| Bullets.ReachesOnlyPlace | script.js:164-165 | whether a bullet reaches an enemy depends only on where the enemy stands |
| Bullets.HitByLast | script.js:156-176 | the bullets up to slot `n` reach an enemy exactly when those before slot `n - 1` do or the one in slot `n - 1` does |
| Bullets.StrikeInOpen | script.js:160-175 | when the moved bullet is still in the open, exactly the living enemies it reaches go down, and if it kills nobody only its own slot changes |
| Bullets.StrikeInOpenCuts | script.js:158-175 | in the same branch the bullets before slot `i` stay, and after `n` kills the array is cut `n` times at `i` |
| Bullets.Survivors | script.js:156-162 | the bullets a frame keeps when nobody is hit: every bullet moved by `speed*dt` along its angle, those stopped by a wall or off the rows dropped, the order kept; none of them is blocked and there are never more than before |
| Bullets.FlyLeaves | script.js:156-175 | one loop step leaves the slots before `i` alone; from slot `i` on it leaves the moved bullet (unless it is blocked) followed by the later slots when nobody is hit, and some of those, in order, when somebody is |
| Bullets.FlyThenSweepBullets | script.js:156-176 | what slot `n - 1` leaves and what the slots before it leave compose into the bullet clauses of the loop one slot longer |
| Bullets.FlyOnceLeaves | script.js:156-175 | the corrected step leaves the moved bullet unless it is blocked or spent, and the later slots untouched |
| Bullets.SweepOnceBullets | script.js:156-176 | the same composition for the corrected loop |
| Bullets.SweepStep | script.js:156-176 | one loop step in front of the rest of the loop is the loop one slot longer |
| Bullets.FlyThenSweep | script.js:156-176 | the casualties of slot `n - 1` and those of the slots before it compose into "reached by one of the first `n` bullets" |
| Bullets.KillsCompose | script.js:156-176 | composing one loop step with the steps after it: an enemy survives both exactly when it was alive and no bullet of either part reaches it |
| Bullets.Strike | script.js:164-175 | every living enemy within 0.5 of the bullet dies and no other enemy changes; each kill adds one to the score and splices slot `i` once more, so after `n` kills the array is the entries before `i` followed by those from `i + n` on |
| Bullets.Fly | script.js:156-175 | one loop step kills exactly the living enemies that the moved bullet reaches while it is still in the open; a bullet that reaches a wall or leaves the rows is removed and the score is unchanged; a bullet in the open that kills nobody stays in its slot, moved, and nothing else changes; the score grows by the kills; bullets before slot `i` stay; a bullet in the open that kills `n` enemies leaves the entries before `i` followed by those from `i + n` on, so it is itself removed along with the next `n - 1` bullets |
| Bullets.Sweep | script.js:156-176 | over the loop from slot `n - 1` down, an enemy survives exactly when it was alive and none of the first `n` bullets reaches it; nobody is revived or moved, each casualty gets `hitTime` 0.3, and the score grows by the number of casualties; the array never grows; with no kill the array is the first `n` bullets moved, minus those stopped by a wall or off the rows, followed by the untouched rest, and with kills it is some of those, in order |
| Bullets.UpdateBullets | script.js:155-177 | the enemies that die are exactly the living ones some bullet reaches this frame; the score grows by exactly the number of enemies killed and never decreases; the bullet array never grows; no living enemy starts to flash; a frame with no kill moves every bullet and drops exactly those that reach a wall or leave the rows (`Bullets.Survivors`), and a frame with kills leaves some of those, in order |
| Bullets.DoubleKillFirst | script.js:164-175 | a bullet standing on two living enemies kills both and, splicing twice, empties an array of at most two bullets |
| Bullets.DoubleKill | script.js:164-175 | one bullet in reach of two enemies kills both and scores two; its second splice also deletes a bullet that had flown on and hit nothing |
| Bullets.FirstHit | script.js:164-168 | the first living enemy in reach, if any |
| Bullets.FlyOnce | script.js:156-175 | corrected body: a bullet that reaches a wall is removed alone and kills nobody; a bullet in the open that reaches no living enemy moves in its slot and nothing else changes; otherwise exactly the first living enemy it reaches dies, the score grows by one, and only this bullet is removed |
| Bullets.SweepOnce | script.js:156-176 | corrected loop: remaining bullets plus kills never exceed the bullets in flight; with no kill the array is the same as in the loop as written, and with kills it is some of those bullets, in order |
| Bullets.UpdateBulletsOnce | script.js:155-177 | corrected `updateBullets`: score grows by the kills, nobody is revived, every kill spends a bullet of its own, and the bullets left are among `Bullets.Survivors`, in order, and all of them when nobody is hit |
| Bullets.DoubleKillFixed | script.js:164-175 | on the double-kill input the corrected loop kills one enemy, scores one and keeps the other bullet |
| Game.AllDeadIffNoneAlive | script.js:578 | `enemies.every(e=>!e.alive)` holds exactly when the HUD's living count is 0 |
| Game.Cleared | script.js:576-578 | the level is complete exactly when no enemy lives and the player is within distance 1 of the exit centre (`Game.AtExit`, squared distance below 1) |
| Game.InExitCell | script.js:578 | standing anywhere in the exit cell is close enough |
| Game.NewWaveNotCleared | script.js:578 | a level cannot be complete while all three freshly spawned enemies live |
| Game.FrameKeepsScore | script.js:445-591 | in a running frame whose bullet update scores exactly its kills (as `Bullets.UpdateBullets` ensures), the session score grows by those kills, so the page's single `score` is the same in both views; the game stops exactly when the completion test holds |
| Session.Click | script.js:612-622 | a click on the menu starts the game unpaused with the level's 120 seconds; during a game it does nothing |
| Session.TogglePause | script.js:142-153 | Escape pauses a running game and resumes a paused one |
| Session.MenuReset | script.js:624-630 | Escape on the menu returns to level 1 with no score |
| Session.Escape | script.js:142-153 | one Escape press runs this listener and then the menu listener at lines 624-630: in a started game it flips `paused` and nothing else; on the menu it resets level and score |
| Session.Tick | script.js:600-608 | the timer does nothing unless the game runs unpaused; it then counts a positive clock down by one, or at zero ends the game; it never makes the clock negative |
| Session.Complete | script.js:578-591 | completion ends the game; on the last level it resets to level 1 with no score, otherwise it moves to the next level |
| Session.Frame | script.js:578-591 | a frame of a stopped or paused game changes nothing (the early return at line 448); otherwise the bullets' kills are scored, then completion is checked |
| Session.Exit | script.js:431-440 | the EXIT listener stops a running, unpaused game and leaves score, level and time alone (the click that follows the same press is a finding) |
| Session.ExitPress | script.js:425-441 | one EXIT press as wired: the EXIT listener, then the document click listener at lines 612-622. Whatever the state, the game is started afterwards (a paused game stays paused, because `Exit` only acts when unpaused), with score and level kept |
| Session.ExitRestarts | script.js:612-622 | as wired (`Session.ExitPress`), one EXIT press in a running game ends with the game running again, unpaused, with the level's full time |
| Session.ExitReachesMenu | script.js:431-440 | the EXIT listener alone leaves the game on the menu, and the next Escape there resets to level 1 with no score |
| Session.Step | script.js:578-630 | every event (including pause at lines 142-153 and the EXIT listener at lines 431-440 as its comment intends) keeps `1 <= level <= maxLevel`, `timeLeft >= 0` and "paused only when started"; the score only decreases by resetting to 0 at level 1 |
| Session.Run | script.js:617 | along any event trace `levelTimes[level-1]` is in bounds |
| Session.InitialValid | script.js:41-51 | the page's initial values satisfy the invariant |
| Session.RunAppend | script.js:600-630 | running two traces in turn is running their concatenation |
| Session.EscapeTwice | script.js:142-153 | pausing and resuming returns a running game to the same state |
| Session.EscapeOnMenu | script.js:624-630 | on the menu Escape never pauses; it resets level and score |
| Session.PausedFrozen | script.js:600-622 | while paused, ticks, clicks and frames (line 448) change nothing |
| Session.TimesOut | script.js:600-608 | a running game with `t` seconds left is over after exactly `t + 1` ticks, clock at 0, score and level kept |
| Session.StillRunning | script.js:600-602 | after `n <= t` ticks the game still runs with `t - n` seconds left |
| Session.FinalLevelResets | script.js:582-589 | completing level 2 restores the initial score and level; completing level 1 moves to level 2 with the frame's kills scored |
| Session.ClickStartsClock | script.js:617 | a start click sets the clock to the level's entry of `levelTimes` |
| Clock.Decimal | script.js:221 | `${n}` is a non-empty run of digits with no leading zero, one digit exactly below 10 |
| Clock.DecimalRoundTrip | script.js:221 | reading the digits back gives `n` |
| Clock.TwoDigits | script.js:221 | the padded seconds are exactly two digits and denote the seconds |
| Clock.ClockText | script.js:220-221 | the part after the constant `Time: ` prefix is minutes, a colon and two digits; the seconds are below 60, and minutes * 60 + seconds equals `timeLeft` |
| Clock.ClockRoundTrip | script.js:220-221 | parsing the HUD string gives back `timeLeft` |
| Clock.ClockInjective | script.js:220-221 | different times show different strings |

## Left out

- Drawing is left out: the canvas, the minimap, the gun sprite, enemy and marker sprites, the EXIT button drawing, `showStartScreen` and the `centerMsg` texts. They are presentation only.
- `castRay`, wall stripes and sprite projection are left out. They are floating-point trigonometry with no discrete rule to state.
- Audio playback and pointer lock are left out. Their errors are swallowed and they change no game state.
- Scheduling is left out: `requestAnimationFrame`, `setInterval`, `clearInterval` and the listeners. Their effects are the explicit transition functions `Frame`, `Tick`, `Click`, `Escape` and `Exit`.
- The EXIT button is not modelled geometrically. Its rectangle test is the boolean `onButton`.
- The gun reticle's clamped screen position is not modelled. It only shifts the aim angle, which `Fire` takes as an argument.
- `Math.hypot` is compared through squared distances.
- The HUD's constant `Time: ` prefix is left out. `Clock.ClockText` is the text after it, and a fixed prefix changes neither the round trip nor injectivity.
- Frame time `dt`, `Math.random`, `Math.cos` and `Math.sin` are parameters. The model does not pin their numeric accuracy.
- Floating-point rounding is left out. `x +- 0.18`, `x + dx`, the bullet step and `Math.random()*n` are exact real arithmetic in the model. IEEE-754 double rounding could move a value across a cell boundary when it lies within one rounding step of it.
- Enemies.SpawnEnemies: the unbounded rejection loop is given a number of attempts (`fuel`); running out of attempts answers `None`, which the page never does (it would loop forever).
- Session.Frame: the frame's effect on the session is given as the number of kills and the completion flag. Its positions come from `Movement`, `Bullets` and `Game`.
- Session.Frame: a frame cut short by a `canMove` throw is not modelled. In the page such a throw stops the animation loop for good (`Movement.LongStepThrows` exhibits it).
- Session.Click: requires the level to index `levelTimes`. `Session.Run` proves this holds on every reachable state.
- Maze generation, the player reset and enemy placement in the click handler live in `Maze.GenerateMaze`, `Movement.Respawn` and `Enemies.SpawnEnemies`. `Session.Click` does not call them.
- Bullets live across levels. The start click never clears `player.bullets`, and the model keeps the array as an argument.

In a few places the code does something other than its own comments,
names or initial values suggest; the model follows the code:

- The comment "Bullet is spent" on the `return` at script.js:173 says a bullet stops at its first hit, but that `return` only leaves the `forEach` callback, so one bullet can kill several enemies in one frame (see Findings).
- The acceptance test `(x!==1 && y!==1)` at script.js:123 refuses every cell of row 1 and every cell of column 1, not just the start cell (1, 1).
- `spawnEnemies(num)` never reads `num`: the loop at script.js:119-120 always places `easyEnemies`, that is three enemies.
- `endPoint` starts at the centre of the corner cell (`mazeWidth-2`, `mazeHeight-2`) at script.js:54, but every maze generation overwrites it at script.js:107-108 with the centre of the cell the search finds farthest from the start.
- The comment "EXIT: stop game, show start screen" at script.js:435 says EXIT returns to the menu, but as wired the same press also starts the level again (see Findings).

## Findings

| source | as written | input that shows it | evidently intended | confidence | as-written member | corrected member |
|---|---|---|---|---|---|---|
| script.js:164-175 | the `return` after a hit leaves only the `forEach` callback, so the same bullet keeps testing later enemies, kills every one in reach, scores each, and calls `splice(i, 1)` once per kill, deleting whichever bullet has moved down into slot `i` | two living enemies at (3.5, 3.5); bullets at (3.5, 3.5) and (5.5, 5.5) in open cells; `dt = 0`: both enemies die, score +2, and both bullets vanish | a bullet is spent on the first enemy it hits and removes only itself, so kills never exceed bullets | high (not executed) | Bullets.DoubleKill | Bullets.UpdateBulletsOnce |
| script.js:425-441 | the EXIT listener stops the game on `mousedown`, but the same press then delivers a `click` to the document, whose listener at lines 612-622 finds `gameStarted` false and starts the level again with full time, a new maze and new enemies; the fire listener at line 130 also adds a bullet first | a running, unpaused game and one press inside the EXIT rectangle: the game is running again afterwards | the press leaves the game and shows the start screen, as the comment at line 435 says | medium (not executed) | Session.ExitRestarts | Session.Exit |

=== FILE: bullets.dfy ===
/** Bullets: firing, and `updateBullets`, which moves every bullet, drops
    the ones that reach a wall and lets the rest shoot enemies. */
module Bullets {
  import opened Common
  import opened Grid
  import opened Enemies

  /** `{x, y, angle, speed}` as pushed by the mouse-down handler. */
  datatype Bullet = Bullet(x: real, y: real, angle: real, speed: real)

  /** Muzzle offset and speed given to every new bullet. */
  const Muzzle: real := 0.6
  const BulletSpeed: real := 10.0

  /** The mouse-down handler: while the game is started (paused or not) it
      appends a bullet 0.6 cells in front of the player along `angle`. */
  function Fire(bullets: seq<Bullet>, started: bool, px: real, py: real, angle: real, trig: Trig): (bs: seq<Bullet>)
    ensures !started ==> bs == bullets
    ensures started ==> |bs| == |bullets| + 1 && bs[..|bullets|] == bullets
    ensures started ==> bs[|bullets|].angle == angle && bs[|bullets|].speed == BulletSpeed
  {
    if !started then bullets
    else bullets + [Bullet(px + trig.cos(angle) * Muzzle, py + trig.sin(angle) * Muzzle, angle, BulletSpeed)]
  }

  const Two31: int := 0x8000_0000
  const Two32: int := 0x1_0000_0000

  /** Rounding towards zero, the first step of ECMAScript ToInt32. */
  function Trunc(r: real): (t: int)
    ensures r >= 0.0 ==> t as real <= r < t as real + 1.0
    ensures r < 0.0 ==> t as real - 1.0 < r <= t as real
  {
    if r >= 0.0 then r.Floor else -((-r).Floor)
  }

  /** `v|0`: ToInt32, truncation followed by wrap-around into the signed
      32-bit range. */
  function ToInt32(r: real): (i: int)
    ensures -Two31 <= i < Two31
    ensures (i - Trunc(r)) % Two32 == 0
    ensures -Two31 <= Trunc(r) < Two31 ==> i == Trunc(r)
  {
    var m := Trunc(r) % Two32;
    if m >= Two31 then m - Two32 else m
  }

  /** `|0` truncates instead of flooring: just above the top edge still
      reads row 0. */
  lemma TruncatesTowardZero()
    ensures ToInt32(-0.5) == 0 && (-0.5).Floor == -1
    ensures ToInt32(2.75) == 2
  {
  }

  /** `!maze[b.y|0] || maze[b.y|0][b.x|0]===1`: the row does not exist, or the
      cell is a wall. A column past the end of its row reads `undefined`,
      which is not 1, so it does not block. */
  predicate Blocked(g: Grid, b: Bullet) {
    var row := ToInt32(b.y);
    !(0 <= row < |g|) || IsWall(g, Pos(ToInt32(b.x), row))
  }

  /** A bullet inside the grid is blocked exactly by a wall cell. */
  lemma BlockedInside(g: Grid, b: Bullet)
    requires WellFormed(g)
    requires 0.0 <= b.x < W as real && 0.0 <= b.y < H as real
    ensures Blocked(g, b) <==> !IsOpen(g, Pos(b.x.Floor, b.y.Floor))
  {
  }

  /** `b.x += Math.cos(b.angle)*b.speed*dt`, and the same for y. */
  function Advance(b: Bullet, trig: Trig, dt: real): (b': Bullet)
    ensures b'.angle == b.angle && b'.speed == b.speed
    ensures dt == 0.0 ==> b' == b
  {
    b.(x := b.x + trig.cos(b.angle) * b.speed * dt, y := b.y + trig.sin(b.angle) * b.speed * dt)
  }

  /** `Math.hypot(b.x-e.x, b.y-e.y) < 0.5`, squared. */
  predicate Near(b: Bullet, e: Enemy) {
    (b.x - e.x) * (b.x - e.x) + (b.y - e.y) * (b.y - e.y) < 0.25
  }

  /** What a hit does to an enemy: `alive=false; hitTime=0.3`. */
  function Killed(e: Enemy): (e': Enemy)
    ensures !e'.alive && e'.hitTime == 0.3
    ensures e'.x == e.x && e'.y == e.y && e'.time == e.time
  {
    e.(alive := false, hitTime := 0.3)
  }

  /** `player.bullets.splice(i, 1)`: removes entry `i` when there is one. */
  function Splice<T>(s: seq<T>, i: nat): (s': seq<T>)
    ensures i < |s| ==> |s'| == |s| - 1 && s'[..i] == s[..i] && s'[i..] == s[i + 1..]
    ensures i >= |s| ==> s' == s
  {
    if i < |s| then s[..i] + s[i + 1..] else s
  }

  /** `n` removals at index `i` in a row: the entries from `i` on lose their
      first `n`, or all of them when fewer remain. */
  function Cut<T>(s: seq<T>, i: nat, n: nat): (s': seq<T>)
    requires i <= |s|
    ensures |s'| == if i + n <= |s| then |s| - n else i
    ensures s'[..i] == s[..i]
  {
    s[..i] + s[(if i + n <= |s| then i + n else |s|)..]
  }

  /** No removal keeps the array; one more splice at `i` is one more cut. */
  lemma CutSplice<T>(s: seq<T>, i: nat, n: nat)
    requires i <= |s|
    ensures Cut(s, i, 0) == s
    ensures Cut(Splice(s, i), i, n) == Cut(s, i, n + 1)
  {
    assert s[..i] + s[i..] == s;
  }

  /** What the cuts remove does not depend on the entry at `i` itself. */
  lemma CutSkipsSlot<T>(s: seq<T>, i: nat, n: nat, x: T)
    requires i < |s| && n > 0
    ensures Cut(s[i := x], i, n) == Cut(s, i, n)
  {
    assert s[i := x][..i] == s[..i];
  }

  /** The state `updateBullets` changes: the bullet array, the enemies and
      the score. */
  datatype Shot = Shot(bullets: seq<Bullet>, enemies: seq<Enemy>, score: nat)

  /** How one bullet pass may change the enemies: nobody comes back to
      life or moves, and everyone who goes down is flashing. */
  ghost predicate Casualties(es: seq<Enemy>, es': seq<Enemy>) {
    && |es'| == |es|
    && (forall k :: 0 <= k < |es| && !es[k].alive ==> es'[k] == es[k])
    && (forall k :: 0 <= k < |es| && es[k].alive && !es'[k].alive ==> es'[k] == Killed(es[k]))
    && (forall k :: 0 <= k < |es| && es'[k].alive ==> es'[k] == es[k])
    && (forall k :: 0 <= k < |es| ==> es'[k].x == es[k].x && es'[k].y == es[k].y)
  }

  lemma CasualtiesTrans(a: seq<Enemy>, b: seq<Enemy>, c: seq<Enemy>)
    requires Casualties(a, b) && Casualties(b, c)
    ensures Casualties(a, c)
  {
  }

  /** A bullet pass never raises the living count, and one that leaves it
      where it was has changed no enemy at all. */
  lemma {:induction false} CasualtiesCount(es: seq<Enemy>, es': seq<Enemy>)
    requires Casualties(es, es')
    ensures AliveCount(es') <= AliveCount(es)
    ensures AliveCount(es') == AliveCount(es) ==> es' == es
    decreases |es|
  {
    if es != [] {
      assert Casualties(es[1..], es'[1..]) by {
        forall k | 0 <= k < |es| - 1 ensures es'[1..][k] == es'[k + 1] && es[1..][k] == es[k + 1] { }
      }
      CasualtiesCount(es[1..], es'[1..]);
      if AliveCount(es') == AliveCount(es) {
        assert es'[0] == es[0];
        assert es' == [es'[0]] + es'[1..] && es == [es[0]] + es[1..];
      }
    }
  }

  /** Killing enemy `k` lowers the living count by one. */
  lemma {:induction false} AliveAfterKill(es: seq<Enemy>, k: nat)
    requires k < |es| && es[k].alive
    ensures AliveCount(es[k := Killed(es[k])]) == AliveCount(es) - 1
    decreases |es|
  {
    var es' := es[k := Killed(es[k])];
    if k == 0 {
      assert es'[1..] == es[1..];
    } else {
      assert es'[1..] == es[1..][k - 1 := Killed(es[k])];
      AliveAfterKill(es[1..], k - 1);
    }
  }

  /** A single kill is a casualty of its own. */
  lemma KillOne(es: seq<Enemy>, k: nat)
    requires k < |es| && es[k].alive
    ensures Casualties(es, es[k := Killed(es[k])])
    ensures AliveCount(es[k := Killed(es[k])]) == AliveCount(es) - 1
  {
    AliveAfterKill(es, k);
  }

  /** The `forEach` over the enemies from index `k` on, as written: the
      `return` after a hit leaves only the callback, so every later enemy
      within reach is killed too, and each kill splices index `i` again,
      which removes the bullet that had moved down into slot `i`. */
  function Strike(b: Bullet, i: nat, st: Shot, k: nat): (r: Shot)
    requires k <= |st.enemies| && i <= |st.bullets|
    ensures Casualties(st.enemies, r.enemies)
    ensures forall j :: 0 <= j < k ==> r.enemies[j] == st.enemies[j]
    ensures forall j :: k <= j < |st.enemies| ==>
              (r.enemies[j].alive <==> st.enemies[j].alive && !Near(b, st.enemies[j]))
    ensures r.score == st.score + (AliveCount(st.enemies) - AliveCount(r.enemies))
    ensures AliveCount(r.enemies) <= AliveCount(st.enemies)
    ensures |r.bullets| <= |st.bullets|
    ensures i <= |r.bullets| && r.bullets[..i] == st.bullets[..i]
    // a bullet that hits nobody removes nothing; one that hits removes an entry
    ensures r.score == st.score ==> r.bullets == st.bullets
    ensures r.score != st.score && i < |st.bullets| ==> |r.bullets| < |st.bullets|
    // every kill splices slot `i` once more
    ensures r.bullets == Cut(st.bullets, i, r.score - st.score)
    decreases |st.enemies| - k
  {
    if k == |st.enemies| then
      CutSplice(st.bullets, i, 0);
      st
    else
      var e := st.enemies[k];
      if !e.alive || !Near(b, e) then Strike(b, i, st, k + 1)
      else
        KillOne(st.enemies, k);
        var st' := Shot(Splice(st.bullets, i), st.enemies[k := Killed(e)], st.score + 1);
        var r := Strike(b, i, st', k + 1);
        CasualtiesTrans(st.enemies, st'.enemies, r.enemies);
        CutSplice(st.bullets, i, r.score - st'.score);
        r
  }

  /** Bullet `b`, moved for one frame, is still in the open and within
      reach of where `e` stands. */
  ghost predicate Reaches(g: Grid, trig: Trig, dt: real, b: Bullet, e: Enemy) {
    var b' := Advance(b, trig, dt);
    !Blocked(g, b') && Near(b', e)
  }

  /** Some bullet of `bs` reaches `e` this frame. */
  ghost predicate HitBy(g: Grid, trig: Trig, dt: real, bs: seq<Bullet>, e: Enemy) {
    exists j :: 0 <= j < |bs| && Reaches(g, trig, dt, bs[j], e)
  }

  /** Only where an enemy stands decides whether a bullet reaches it. */
  lemma ReachesOnlyPlace(g: Grid, trig: Trig, dt: real, bs: seq<Bullet>, e: Enemy, e': Enemy)
    requires e.x == e'.x && e.y == e'.y
    ensures HitBy(g, trig, dt, bs, e) <==> HitBy(g, trig, dt, bs, e')
  {
    assert forall b :: Near(b, e) <==> Near(b, e');
  }

  /** The bullets up to `n` reach `e` when the first `n - 1` do or the last
      one does. */
  lemma HitByLast(g: Grid, trig: Trig, dt: real, bs: seq<Bullet>, e: Enemy)
    requires |bs| > 0
    ensures HitBy(g, trig, dt, bs, e) <==>
              HitBy(g, trig, dt, bs[..|bs| - 1], e) || Reaches(g, trig, dt, bs[|bs| - 1], e)
  {
    var m := |bs| - 1;
    if HitBy(g, trig, dt, bs[..m], e) {
      var j :| 0 <= j < m && Reaches(g, trig, dt, bs[..m][j], e);
      assert bs[..m][j] == bs[j];
    }
    if HitBy(g, trig, dt, bs, e) && !Reaches(g, trig, dt, bs[m], e) {
      var j :| 0 <= j < |bs| && Reaches(g, trig, dt, bs[j], e);
      assert bs[..m][j] == bs[j];
    }
  }

  /** The body of the `for` loop for index `i` (counting down): move the
      bullet, drop it at a wall, otherwise let it hit. */
  function Fly(g: Grid, trig: Trig, dt: real, st: Shot, i: nat): (r: Shot)
    requires i < |st.bullets|
    ensures Casualties(st.enemies, r.enemies)
    ensures r.score == st.score + (AliveCount(st.enemies) - AliveCount(r.enemies))
    ensures AliveCount(r.enemies) <= AliveCount(st.enemies)
    ensures i <= |r.bullets| < |st.bullets| || (|r.bullets| == |st.bullets| && r.score == st.score)
    ensures r.bullets[..i] == st.bullets[..i]
    // exactly the living enemies this bullet reaches go down, every one of them
    ensures forall k :: 0 <= k < |st.enemies| ==>
              (r.enemies[k].alive <==> st.enemies[k].alive && !Reaches(g, trig, dt, st.bullets[i], st.enemies[k]))
    // a bullet that reaches a wall or leaves the rows is dropped without scoring
    ensures Blocked(g, Advance(st.bullets[i], trig, dt)) ==>
              r == Shot(Splice(st.bullets, i), st.enemies, st.score)
    // one that stays in the open and hits nobody keeps its slot, moved
    ensures !Blocked(g, Advance(st.bullets[i], trig, dt)) && r.score == st.score ==>
              r == st.(bullets := st.bullets[i := Advance(st.bullets[i], trig, dt)])
    // one that hits splices slot `i` once per kill, which also removes the
    // bullets that had moved down into that slot
    ensures !Blocked(g, Advance(st.bullets[i], trig, dt)) && r.score != st.score ==>
              r.bullets == Cut(st.bullets, i, r.score - st.score)
  {
    var b := Advance(st.bullets[i], trig, dt);
    var bs := st.bullets[i := b];
    assert bs[..i] == st.bullets[..i];
    if Blocked(g, b) then Shot(Splice(bs, i), st.enemies, st.score)
    else
      StrikeInOpen(g, trig, dt, st, i);
      StrikeInOpenCuts(trig, dt, st, i);
      Strike(b, i, st.(bullets := bs), 0)
  }

  /** The branch of the loop body where the moved bullet is still in the
      open, stated against the array before the move: exactly the living
      enemies it reaches go down, and a bullet that kills nobody changes
      nothing but its own slot. */
  lemma StrikeInOpen(g: Grid, trig: Trig, dt: real, st: Shot, i: nat)
    requires i < |st.bullets| && !Blocked(g, Advance(st.bullets[i], trig, dt))
    ensures var b := Advance(st.bullets[i], trig, dt);
            var r := Strike(b, i, st.(bullets := st.bullets[i := b]), 0);
            && (forall k :: 0 <= k < |st.enemies| ==>
                  (r.enemies[k].alive <==> st.enemies[k].alive && !Reaches(g, trig, dt, st.bullets[i], st.enemies[k])))
            && (r.score == st.score ==> r == st.(bullets := st.bullets[i := b]))
  {
    var b := Advance(st.bullets[i], trig, dt);
    var r := Strike(b, i, st.(bullets := st.bullets[i := b]), 0);
    CasualtiesCount(st.enemies, r.enemies);
  }

  /** In the same branch, the bullets that remain: the ones before slot `i`
      and, past the kills' splices, the ones after. */
  lemma StrikeInOpenCuts(trig: Trig, dt: real, st: Shot, i: nat)
    requires i < |st.bullets|
    ensures var b := Advance(st.bullets[i], trig, dt);
            var r := Strike(b, i, st.(bullets := st.bullets[i := b]), 0);
            && r.bullets[..i] == st.bullets[..i]
            && (r.score != st.score ==> r.bullets == Cut(st.bullets, i, r.score - st.score))
  {
    var b := Advance(st.bullets[i], trig, dt);
    var bs := st.bullets[i := b];
    assert bs[..i] == st.bullets[..i];
    var r := Strike(b, i, st.(bullets := bs), 0);
    if r.score != st.score {
      CutSkipsSlot(st.bullets, i, r.score - st.score, b);
    }
  }

  /** The loop steps so far, composed: `es2` is what the bullets before the
      last one leave of `es1`, and `es1` what the last one leaves of `es`. */
  lemma KillsCompose(g: Grid, trig: Trig, dt: real, bs: seq<Bullet>, es: seq<Enemy>, es1: seq<Enemy>, es2: seq<Enemy>)
    requires |bs| > 0 && Casualties(es, es1) && |es2| == |es|
    requires forall k :: 0 <= k < |es| ==>
               (es1[k].alive <==> es[k].alive && !Reaches(g, trig, dt, bs[|bs| - 1], es[k]))
    requires forall k :: 0 <= k < |es| ==>
               (es2[k].alive <==> es1[k].alive && !HitBy(g, trig, dt, bs[..|bs| - 1], es1[k]))
    ensures forall k :: 0 <= k < |es| ==> (es2[k].alive <==> es[k].alive && !HitBy(g, trig, dt, bs, es[k]))
  {
    forall k | 0 <= k < |es|
      ensures es2[k].alive <==> es[k].alive && !HitBy(g, trig, dt, bs, es[k])
    {
      ReachesOnlyPlace(g, trig, dt, bs[..|bs| - 1], es[k], es1[k]);
      HitByLast(g, trig, dt, bs, es[k]);
    }
  }

  /** The bullets of `bs` that a frame with no hit leaves behind: each
      one moved, those that reach a wall or leave the rows dropped, the
      rest in their original order. */
  function Survivors(g: Grid, trig: Trig, dt: real, bs: seq<Bullet>): (s: seq<Bullet>)
    ensures |s| <= |bs|
    ensures forall j :: 0 <= j < |s| ==> !Blocked(g, s[j])
    decreases |bs|
  {
    if bs == [] then []
    else
      var b := Advance(bs[|bs| - 1], trig, dt);
      Survivors(g, trig, dt, bs[..|bs| - 1]) + (if Blocked(g, b) then [] else [b])
  }

  /** `a` is `b` with some entries left out and the rest in order. */
  ghost predicate Sublist<T>(a: seq<T>, b: seq<T>)
    decreases |b|
  {
    if a == [] then true
    else if b == [] then false
    else (a[0] == b[0] && Sublist(a[1..], b[1..])) || Sublist(a, b[1..])
  }

  lemma {:induction false} SublistRefl<T>(a: seq<T>)
    ensures Sublist(a, a)
    decreases |a|
  {
    if a != [] {
      SublistRefl(a[1..]);
    }
  }

  /** Leaving out entries twice is leaving them out once. */
  lemma {:induction false} SublistTrans<T>(a: seq<T>, b: seq<T>, c: seq<T>)
    requires Sublist(a, b) && Sublist(b, c)
    ensures Sublist(a, c)
    decreases |c|
  {
    if a != [] {
      if b[0] == c[0] && Sublist(b[1..], c[1..]) {
        if a[0] == b[0] && Sublist(a[1..], b[1..]) {
          SublistTrans(a[1..], b[1..], c[1..]);
        } else {
          SublistTrans(a, b[1..], c[1..]);
        }
      } else {
        SublistTrans(a, b, c[1..]);
      }
    }
  }

  /** A common prefix may be put in front of both sides. */
  lemma {:induction false} SublistPrefix<T>(p: seq<T>, a: seq<T>, b: seq<T>)
    requires Sublist(a, b)
    ensures Sublist(p + a, p + b)
    decreases |p|
  {
    if p == [] {
      assert p + a == a && p + b == b;
    } else {
      SublistPrefix(p[1..], a, b);
      assert (p + a)[1..] == p[1..] + a && (p + b)[1..] == p[1..] + b;
    }
  }

  /** Any tail of `s` is a sublist of `s` with anything in front. */
  lemma {:induction false} SublistTail<T>(c: seq<T>, s: seq<T>, k: nat)
    requires k <= |s|
    ensures Sublist(s[k..], c + s)
    decreases |c| + k
  {
    if c != [] {
      SublistTail(c[1..], s, k);
      assert (c + s)[1..] == c[1..] + s;
    } else if k > 0 {
      SublistTail(c, s[1..], k - 1);
      assert s[1..][k - 1..] == s[k..] && c + s == s && c + s[1..] == s[1..];
    } else {
      assert c + s == s;
      SublistRefl(s);
    }
  }

  /** What the loop from slot `n - 1` down does: nobody is revived or
      moved and every casualty flashes; an enemy survives exactly when it
      was alive and none of the first `n` bullets reaches it; the score
      grows by the number of casualties; the bullets left are the first
      `n` moved and thinned out by the walls, followed by the untouched
      rest, when nobody was hit, and some of those, in order, when
      somebody was. */
  ghost predicate Swept(g: Grid, trig: Trig, dt: real, st: Shot, n: nat, r: Shot)
    requires n <= |st.bullets|
  {
    && Casualties(st.enemies, r.enemies)
    && r.score == st.score + (AliveCount(st.enemies) - AliveCount(r.enemies))
    && AliveCount(r.enemies) <= AliveCount(st.enemies)
    && |r.bullets| <= |st.bullets|
    && (forall k :: 0 <= k < |st.enemies| ==>
          (r.enemies[k].alive <==> st.enemies[k].alive && !HitBy(g, trig, dt, st.bullets[..n], st.enemies[k])))
    && (r.score == st.score ==> r.bullets == Survivors(g, trig, dt, st.bullets[..n]) + st.bullets[n..])
    && Sublist(r.bullets, Survivors(g, trig, dt, st.bullets[..n]) + st.bullets[n..])
  }

  /** The `for` loop from index `n - 1` down to 0. */
  function Sweep(g: Grid, trig: Trig, dt: real, st: Shot, n: nat): (r: Shot)
    requires n <= |st.bullets|
    ensures Swept(g, trig, dt, st, n, r)
    decreases n
  {
    if n == 0 then
      SublistRefl(st.bullets);
      assert Survivors(g, trig, dt, st.bullets[..0]) + st.bullets[0..] == st.bullets;
      st
    else
      var st' := Fly(g, trig, dt, st, n - 1);
      var r := Sweep(g, trig, dt, st', n - 1);
      SweepStep(g, trig, dt, st, n, r);
      r
  }

  /** One step of the loop in front of the rest of it is the loop one
      slot longer. */
  lemma SweepStep(g: Grid, trig: Trig, dt: real, st: Shot, n: nat, r: Shot)
    requires 0 < n <= |st.bullets|
    requires Swept(g, trig, dt, Fly(g, trig, dt, st, n - 1), n - 1, r)
    ensures Swept(g, trig, dt, st, n, r)
  {
    var st' := Fly(g, trig, dt, st, n - 1);
    CasualtiesTrans(st.enemies, st'.enemies, r.enemies);
    FlyThenSweep(g, trig, dt, st, n, st'.bullets[..n - 1], st'.enemies, r.enemies);
    FlyThenSweepBullets(g, trig, dt, st, n, st', r);
  }

  /** The bullet half of `SweepStep`: what slot `n - 1` leaves of itself
      and of the later slots, in front of what the slots before it leave. */
  lemma FlyThenSweepBullets(g: Grid, trig: Trig, dt: real, st: Shot, n: nat, st': Shot, r: Shot)
    requires 0 < n <= |st.bullets| && st' == Fly(g, trig, dt, st, n - 1)
    requires st.score <= st'.score <= r.score
    requires r.score == st'.score ==> r.bullets == Survivors(g, trig, dt, st'.bullets[..n - 1]) + st'.bullets[n - 1..]
    requires Sublist(r.bullets, Survivors(g, trig, dt, st'.bullets[..n - 1]) + st'.bullets[n - 1..])
    ensures r.score == st.score ==> r.bullets == Survivors(g, trig, dt, st.bullets[..n]) + st.bullets[n..]
    ensures Sublist(r.bullets, Survivors(g, trig, dt, st.bullets[..n]) + st.bullets[n..])
  {
    var bs := st.bullets;
    var opt := FlyLeaves(g, trig, dt, st, n - 1);
    assert bs[..n][..n - 1] == bs[..n - 1];
    assert Survivors(g, trig, dt, bs[..n]) == Survivors(g, trig, dt, bs[..n - 1]) + opt;
    Thinned(Survivors(g, trig, dt, bs[..n - 1]), opt, bs[n..], st'.bullets[n - 1..], r.bullets, r.score == st.score);
  }

  /** A front part followed by a thinned-out tail, thinned out once more,
      is a thinning of the front followed by the whole tail. */
  lemma Thinned<T>(front: seq<T>, opt: seq<T>, later: seq<T>, tail: seq<T>, rest: seq<T>, same: bool)
    requires same ==> tail == opt + later && rest == front + tail
    requires Sublist(tail, opt + later) && Sublist(rest, front + tail)
    ensures same ==> rest == front + opt + later
    ensures Sublist(rest, front + opt + later)
  {
    SublistPrefix(front, tail, opt + later);
    assert front + (opt + later) == front + opt + later;
    SublistTrans(rest, front + tail, front + opt + later);
  }

  /** What slot `i` leaves of itself and of the slots after it: the moved
      bullet, or nothing when it is blocked, in front of the later ones
      when nobody is hit, and some of those when somebody is. */
  lemma FlyLeaves(g: Grid, trig: Trig, dt: real, st: Shot, i: nat) returns (opt: seq<Bullet>)
    requires i < |st.bullets|
    ensures var b := Advance(st.bullets[i], trig, dt);
            opt == if Blocked(g, b) then [] else [b]
    ensures var r := Fly(g, trig, dt, st, i);
            && r.bullets[..i] == st.bullets[..i]
            && st.score <= r.score
            && (r.score == st.score ==> r.bullets[i..] == opt + st.bullets[i + 1..])
            && Sublist(r.bullets[i..], opt + st.bullets[i + 1..])
  {
    var bs := st.bullets;
    var b := Advance(bs[i], trig, dt);
    opt := if Blocked(g, b) then [] else [b];
    var r := Fly(g, trig, dt, st, i);
    var tail := r.bullets[i..];
    if r.score == st.score {
      if Blocked(g, b) {
        assert tail == bs[i + 1..];
      } else {
        assert tail == opt + bs[i + 1..];
      }
      SublistRefl(tail);
    } else {
      var m := r.score - st.score;
      var cut := if i + m <= |bs| then i + m else |bs|;
      assert tail == bs[i + 1..][cut - (i + 1)..];
      SublistTail(opt, bs[i + 1..], cut - (i + 1));
    }
  }

  /** The enemy half of `SweepStep`: the casualties of slot `n - 1` and
      those of the slots before it compose. */
  lemma FlyThenSweep(g: Grid, trig: Trig, dt: real, st: Shot, n: nat, rest: seq<Bullet>, es1: seq<Enemy>, es2: seq<Enemy>)
    requires 0 < n <= |st.bullets| && |es2| == |st.enemies|
    requires rest == st.bullets[..n - 1] && Casualties(st.enemies, es1)
    requires forall k :: 0 <= k < |st.enemies| ==>
               (es1[k].alive <==> st.enemies[k].alive && !Reaches(g, trig, dt, st.bullets[n - 1], st.enemies[k]))
    requires forall k :: 0 <= k < |es1| ==> (es2[k].alive <==> es1[k].alive && !HitBy(g, trig, dt, rest, es1[k]))
    ensures forall k :: 0 <= k < |st.enemies| ==>
              (es2[k].alive <==> st.enemies[k].alive && !HitBy(g, trig, dt, st.bullets[..n], st.enemies[k]))
  {
    var bs := st.bullets[..n];
    assert bs[..n - 1] == rest && bs[n - 1] == st.bullets[n - 1];
    KillsCompose(g, trig, dt, bs, st.enemies, es1, es2);
  }

  /** `updateBullets(dt)` as written: the score grows by exactly the number
      of enemies that went down, nobody is revived, and the bullets left
      are among those that moved without reaching a wall. */
  function UpdateBullets(g: Grid, trig: Trig, dt: real, st: Shot): (r: Shot)
    ensures Casualties(st.enemies, r.enemies)
    ensures r.score == st.score + (AliveCount(st.enemies) - AliveCount(r.enemies))
    ensures st.score <= r.score
    ensures |r.bullets| <= |st.bullets|
    // the flash of a hit is only ever set on an enemy the same hit kills
    ensures NoFlash(st.enemies) ==> NoFlash(r.enemies)
    // the enemies that go down are exactly the living ones some bullet reaches
    ensures forall k :: 0 <= k < |st.enemies| ==>
              (r.enemies[k].alive <==> st.enemies[k].alive && !HitBy(g, trig, dt, st.bullets, st.enemies[k]))
    // a frame without a hit moves every bullet and drops exactly the
    // blocked ones; with a hit, what is left is some of those, in order
    ensures r.score == st.score ==> r.bullets == Survivors(g, trig, dt, st.bullets)
    ensures Sublist(r.bullets, Survivors(g, trig, dt, st.bullets))
  {
    var n := |st.bullets|;
    assert st.bullets[..n] == st.bullets;
    assert Survivors(g, trig, dt, st.bullets) + st.bullets[n..] == Survivors(g, trig, dt, st.bullets);
    Sweep(g, trig, dt, st, n)
  }

  /** A bullet out of everyone's reach changes nothing. */
  lemma StrikeMisses(b: Bullet, i: nat, st: Shot)
    requires i <= |st.bullets|
    requires forall j :: 0 <= j < |st.enemies| ==> !(st.enemies[j].alive && Near(b, st.enemies[j]))
    ensures Strike(b, i, st, 0) == st
  {
    var r := Strike(b, i, st, 0);
    assert r.enemies == st.enemies;
  }

  /** A bullet in reach of both of two living enemies kills both and
      splices slot `i` twice. */
  lemma StrikeTwice(b: Bullet, i: nat, bs: seq<Bullet>, e: Enemy, s: nat)
    requires i <= |bs| && e.alive && Near(b, e)
    ensures Strike(b, i, Shot(bs, [e, e], s), 0)
         == Shot(Splice(Splice(bs, i), i), [Killed(e), Killed(e)], s + 2)
  {
    var k := Killed(e);
    assert [e, e][0 := k] == [k, e];
    assert [k, e][1 := k] == [k, k];
    var end := Shot(Splice(Splice(bs, i), i), [k, k], s + 2);
    assert Strike(b, i, end, 2) == end;
    assert Strike(b, i, Shot(Splice(bs, i), [k, e], s + 1), 1) == end;
  }

  /** The first bullet of the double-kill scene, standing on both enemies,
      takes both and empties an array of at most two bullets. */
  lemma DoubleKillFirst(g: Grid, trig: Trig, bs: seq<Bullet>)
    requires IsOpen(g, Pos(3, 3)) && 0 < |bs| <= 2 && bs[0] == Bullet(3.5, 3.5, 0.0, BulletSpeed)
    ensures var e := Newborn(Pos(3, 3));
            Fly(g, trig, 0.0, Shot(bs, [e, e], 0), 0) == Shot([], [Killed(e), Killed(e)], 2)
  {
    var e := Newborn(Pos(3, 3));
    var b0 := bs[0];
    assert !Blocked(g, b0) && Near(b0, e);
    StrikeTwice(b0, 0, bs, e, 0);
    assert bs[0 := b0] == bs;
    assert Splice(Splice(bs, 0), 0) == [];
  }

  /** A single bullet in reach of two living enemies kills both and scores
      two, and the second splice also removes a bullet that had already
      flown past and hit nothing. */
  lemma DoubleKill(g: Grid, trig: Trig)
    requires IsOpen(g, Pos(3, 3)) && IsOpen(g, Pos(5, 5))
    ensures var e := Newborn(Pos(3, 3));
            var b0 := Bullet(3.5, 3.5, 0.0, BulletSpeed);
            var b1 := Bullet(5.5, 5.5, 0.0, BulletSpeed);
            && UpdateBullets(g, trig, 0.0, Shot([b0], [e, e], 0)) == Shot([], [Killed(e), Killed(e)], 2)
            && UpdateBullets(g, trig, 0.0, Shot([b0, b1], [e, e], 0)) == Shot([], [Killed(e), Killed(e)], 2)
  {
    var e := Newborn(Pos(3, 3));
    var b0 := Bullet(3.5, 3.5, 0.0, BulletSpeed);
    var b1 := Bullet(5.5, 5.5, 0.0, BulletSpeed);
    var done := Shot([], [Killed(e), Killed(e)], 2);
    // one bullet
    var one := Shot([b0], [e, e], 0);
    DoubleKillFirst(g, trig, [b0]);
    assert Sweep(g, trig, 0.0, one, 1) == Sweep(g, trig, 0.0, done, 0);
    // two bullets: b1 flies first and survives, then b0's two splices take both
    var two := Shot([b0, b1], [e, e], 0);
    assert !Blocked(g, b1) && !Near(b1, e);
    StrikeMisses(b1, 1, two);
    assert [b0, b1][1 := b1] == [b0, b1];
    assert Fly(g, trig, 0.0, two, 1) == two;
    DoubleKillFirst(g, trig, [b0, b1]);
    assert Sweep(g, trig, 0.0, two, 1) == done;
    assert Sweep(g, trig, 0.0, two, 2) == done;
  }

  /** The first living enemy from index `k` on within reach of `b`. */
  function FirstHit(b: Bullet, es: seq<Enemy>, k: nat): (r: Option<nat>)
    requires k <= |es|
    ensures r.Some? ==> k <= r.value < |es| && es[r.value].alive && Near(b, es[r.value])
    ensures r.Some? ==> forall j :: k <= j < r.value ==> !(es[j].alive && Near(b, es[j]))
    ensures r.None? ==> forall j :: k <= j < |es| ==> !(es[j].alive && Near(b, es[j]))
    decreases |es| - k
  {
    if k == |es| then None
    else if es[k].alive && Near(b, es[k]) then Some(k)
    else FirstHit(b, es, k + 1)
  }

  /** The loop body as its comment intends: the bullet is spent on the
      first enemy it reaches and removes only itself. */
  function FlyOnce(g: Grid, trig: Trig, dt: real, st: Shot, i: nat): (r: Shot)
    requires i < |st.bullets|
    ensures Casualties(st.enemies, r.enemies)
    ensures r.score == st.score + (AliveCount(st.enemies) - AliveCount(r.enemies))
    ensures AliveCount(r.enemies) + 1 >= AliveCount(st.enemies)
    ensures |r.bullets| + (r.score - st.score) <= |st.bullets|
    ensures i <= |r.bullets| && r.bullets[..i] == st.bullets[..i]
    // any bullet that is not dropped and hits nobody keeps its slot
    ensures |r.bullets| == |st.bullets| ==> r.bullets[i] == Advance(st.bullets[i], trig, dt) && r.score == st.score
    // a dropped bullet removes only itself and kills nobody
    ensures Blocked(g, Advance(st.bullets[i], trig, dt)) ==>
              r == Shot(Splice(st.bullets, i), st.enemies, st.score)
    // a bullet in the open that reaches nobody moves in its slot
    ensures !Blocked(g, Advance(st.bullets[i], trig, dt)) && FirstHit(Advance(st.bullets[i], trig, dt), st.enemies, 0).None? ==>
              r == st.(bullets := st.bullets[i := Advance(st.bullets[i], trig, dt)])
    // otherwise it kills the first living enemy it reaches and removes only itself
    ensures !Blocked(g, Advance(st.bullets[i], trig, dt)) && FirstHit(Advance(st.bullets[i], trig, dt), st.enemies, 0).Some? ==>
              var k := FirstHit(Advance(st.bullets[i], trig, dt), st.enemies, 0).value;
              r == Shot(Splice(st.bullets, i), st.enemies[k := Killed(st.enemies[k])], st.score + 1)
  {
    var b := Advance(st.bullets[i], trig, dt);
    var bs := st.bullets[i := b];
    assert bs[..i] == st.bullets[..i] && Splice(bs, i) == Splice(st.bullets, i);
    if Blocked(g, b) then Shot(Splice(bs, i), st.enemies, st.score)
    else match FirstHit(b, st.enemies, 0)
      case None => Shot(bs, st.enemies, st.score)
      case Some(k) =>
        AliveAfterKill(st.enemies, k);
        Shot(Splice(bs, i), st.enemies[k := Killed(st.enemies[k])], st.score + 1)
  }

  /** What the corrected step for slot `i` leaves of itself and of the
      slots after it: the moved bullet when it is neither blocked nor
      spent, and the later slots untouched. */
  lemma FlyOnceLeaves(g: Grid, trig: Trig, dt: real, st: Shot, i: nat) returns (opt: seq<Bullet>)
    requires i < |st.bullets|
    ensures var b := Advance(st.bullets[i], trig, dt);
            opt == if Blocked(g, b) then [] else [b]
    ensures var r := FlyOnce(g, trig, dt, st, i);
            && r.bullets[..i] == st.bullets[..i]
            && st.score <= r.score
            && (r.score == st.score ==> r.bullets[i..] == opt + st.bullets[i + 1..])
            && Sublist(r.bullets[i..], opt + st.bullets[i + 1..])
  {
    var bs := st.bullets;
    var b := Advance(bs[i], trig, dt);
    opt := if Blocked(g, b) then [] else [b];
    var r := FlyOnce(g, trig, dt, st, i);
    if r.score == st.score {
      if Blocked(g, b) {
        assert r.bullets[i..] == bs[i + 1..];
      } else {
        assert r.bullets[i..] == opt + bs[i + 1..];
      }
      SublistRefl(r.bullets[i..]);
    } else {
      assert r.bullets[i..] == bs[i + 1..][0..];
      SublistTail(opt, bs[i + 1..], 0);
    }
  }

  /** The corrected loop: the same bullets are left as by the loop as
      written when nobody is hit, and otherwise some of them, in order. */
  function SweepOnce(g: Grid, trig: Trig, dt: real, st: Shot, n: nat): (r: Shot)
    requires n <= |st.bullets|
    ensures Casualties(st.enemies, r.enemies)
    ensures r.score == st.score + (AliveCount(st.enemies) - AliveCount(r.enemies))
    ensures |r.bullets| + (r.score - st.score) <= |st.bullets|
    ensures r.score == st.score ==> r.bullets == Survivors(g, trig, dt, st.bullets[..n]) + st.bullets[n..]
    ensures Sublist(r.bullets, Survivors(g, trig, dt, st.bullets[..n]) + st.bullets[n..])
    decreases n
  {
    if n == 0 then
      SublistRefl(st.bullets);
      assert Survivors(g, trig, dt, st.bullets[..0]) + st.bullets[0..] == st.bullets;
      st
    else
      var st' := FlyOnce(g, trig, dt, st, n - 1);
      var r := SweepOnce(g, trig, dt, st', n - 1);
      CasualtiesTrans(st.enemies, st'.enemies, r.enemies);
      CasualtiesCount(st'.enemies, r.enemies);
      SweepOnceBullets(g, trig, dt, st, n, st', r);
      r
  }

  /** The bullet half of a corrected loop step. */
  lemma SweepOnceBullets(g: Grid, trig: Trig, dt: real, st: Shot, n: nat, st': Shot, r: Shot)
    requires 0 < n <= |st.bullets| && st' == FlyOnce(g, trig, dt, st, n - 1)
    requires st'.score <= r.score
    requires r.score == st'.score ==> r.bullets == Survivors(g, trig, dt, st'.bullets[..n - 1]) + st'.bullets[n - 1..]
    requires Sublist(r.bullets, Survivors(g, trig, dt, st'.bullets[..n - 1]) + st'.bullets[n - 1..])
    ensures r.score == st.score ==> r.bullets == Survivors(g, trig, dt, st.bullets[..n]) + st.bullets[n..]
    ensures Sublist(r.bullets, Survivors(g, trig, dt, st.bullets[..n]) + st.bullets[n..])
  {
    var bs := st.bullets;
    var opt := FlyOnceLeaves(g, trig, dt, st, n - 1);
    assert bs[..n][..n - 1] == bs[..n - 1];
    assert Survivors(g, trig, dt, bs[..n]) == Survivors(g, trig, dt, bs[..n - 1]) + opt;
    Thinned(Survivors(g, trig, dt, bs[..n - 1]), opt, bs[n..], st'.bullets[n - 1..], r.bullets, r.score == st.score);
  }

  /** `updateBullets(dt)` with one kill per bullet: every kill spends a
      bullet of its own, so the kills of a frame never outnumber the
      bullets that were in flight. */
  function UpdateBulletsOnce(g: Grid, trig: Trig, dt: real, st: Shot): (r: Shot)
    ensures Casualties(st.enemies, r.enemies)
    ensures r.score == st.score + (AliveCount(st.enemies) - AliveCount(r.enemies))
    ensures |r.bullets| + (r.score - st.score) <= |st.bullets|
    ensures r.score == st.score ==> r.bullets == Survivors(g, trig, dt, st.bullets)
    ensures Sublist(r.bullets, Survivors(g, trig, dt, st.bullets))
  {
    var n := |st.bullets|;
    assert st.bullets[..n] == st.bullets;
    assert Survivors(g, trig, dt, st.bullets) + st.bullets[n..] == Survivors(g, trig, dt, st.bullets);
    SweepOnce(g, trig, dt, st, n)
  }

  /** On the double-kill input the corrected loop kills one enemy, keeps
      the bystander bullet and scores one. */
  lemma DoubleKillFixed(g: Grid, trig: Trig)
    requires IsOpen(g, Pos(3, 3)) && IsOpen(g, Pos(5, 5))
    ensures var e := Newborn(Pos(3, 3));
            var b0 := Bullet(3.5, 3.5, 0.0, BulletSpeed);
            var b1 := Bullet(5.5, 5.5, 0.0, BulletSpeed);
            UpdateBulletsOnce(g, trig, 0.0, Shot([b0, b1], [e, e], 0)) == Shot([b1], [Killed(e), e], 1)
  {
    var e := Newborn(Pos(3, 3));
    var b0 := Bullet(3.5, 3.5, 0.0, BulletSpeed);
    var b1 := Bullet(5.5, 5.5, 0.0, BulletSpeed);
    assert !Blocked(g, b0) && !Blocked(g, b1);
    assert Near(b0, e) && !Near(b1, e);
    assert FirstHit(b1, [e, e], 0) == None;
    assert FirstHit(b0, [e, e], 0) == Some(0);
    assert [b0, b1][1 := b1] == [b0, b1] && [b0, b1][0 := b0] == [b0, b1];
    assert FlyOnce(g, trig, 0.0, Shot([b0, b1], [e, e], 0), 1) == Shot([b0, b1], [e, e], 0);
    assert Splice([b0, b1], 0) == [b1];
    assert FlyOnce(g, trig, 0.0, Shot([b0, b1], [e, e], 0), 0) == Shot([b1], [Killed(e), e], 1);
  }
}

=== FILE: clock.dfy ===
/** The HUD time string: `timeLeft` seconds shown as minutes, a colon and
    two-digit seconds. */
module Clock {
  import opened Common

  predicate IsDigit(c: char) {
    '0' <= c <= '9'
  }

  predicate AllDigits(s: string) {
    forall i :: 0 <= i < |s| ==> IsDigit(s[i])
  }

  function Digit(n: nat): (c: char)
    requires n < 10
    ensures IsDigit(c) && (c as int) - ('0' as int) == n
  {
    ('0' as int + n) as char
  }

  /** `${n}` for a non-negative integer: decimal digits, no leading zero. */
  function Decimal(n: nat): (s: string)
    ensures |s| >= 1 && AllDigits(s)
    ensures |s| > 1 ==> s[0] != '0'
    ensures n < 10 <==> |s| == 1
    ensures 10 <= n < 100 ==> |s| == 2
  {
    if n < 10 then [Digit(n)] else Decimal(n / 10) + [Digit(n % 10)]
  }

  /** The number a string of decimal digits denotes. */
  function Value(s: string): (n: nat)
    requires AllDigits(s)
  {
    if s == [] then 0
    else Value(s[..|s| - 1]) * 10 + ((s[|s| - 1] as int) - ('0' as int))
  }

  /** Reading a number back gives the number written. */
  lemma {:induction false} DecimalRoundTrip(n: nat)
    ensures Value(Decimal(n)) == n
  {
    if n >= 10 {
      var s := Decimal(n);
      assert s[..|s| - 1] == Decimal(n / 10);
      DecimalRoundTrip(n / 10);
    }
  }

  /** `${seconds<10?'0':''}${seconds}`. */
  function TwoDigits(n: nat): (s: string)
    requires n < 60
    ensures |s| == 2 && AllDigits(s) && Value(s) == n
  {
    DecimalRoundTrip(n);
    if n < 10 then
      var s := "0" + Decimal(n);
      assert s[..1] == "0";
      s
    else Decimal(n)
  }

  /** `${minutes}:${padded seconds}` with `minutes = Math.floor(t/60)` and
      `seconds = t % 60`. `timeLeft` never goes negative, so JavaScript's
      floor and remainder agree with Dafny's here. */
  function ClockText(t: nat): (s: string)
    ensures |s| >= 4 && s[|s| - 3] == ':'
    ensures AllDigits(s[..|s| - 3]) && AllDigits(s[|s| - 2..])
    ensures Value(s[|s| - 2..]) < 60
    ensures Value(s[..|s| - 3]) * 60 + Value(s[|s| - 2..]) == t
  {
    var m := Decimal(t / 60);
    var sec := TwoDigits(t % 60);
    var s := m + ":" + sec;
    assert s[..|s| - 3] == m && s[|s| - 2..] == sec;
    DecimalRoundTrip(t / 60);
    s
  }

  /** The first position at or after `k` holding `c`. */
  function Find(s: string, c: char, k: nat): (r: Option<nat>)
    requires k <= |s|
    ensures r.Some? ==> k <= r.value < |s| && s[r.value] == c
    ensures r.Some? ==> forall j :: k <= j < r.value ==> s[j] != c
    ensures r.None? ==> forall j :: k <= j < |s| ==> s[j] != c
    decreases |s| - k
  {
    if k == |s| then None else if s[k] == c then Some(k) else Find(s, c, k + 1)
  }

  /** Reads a HUD time string back: digits, a colon, exactly two digits
      below 60. */
  function ParseClock(s: string): (r: Option<nat>)
    ensures r.Some? ==> exists i :: 0 < i < |s| && s[i] == ':'
  {
    match Find(s, ':', 0)
    case None => None
    case Some(i) =>
      var m := s[..i];
      var sec := s[i + 1..];
      if 0 < |m| && AllDigits(m) && |sec| == 2 && AllDigits(sec) && Value(sec) < 60
      then Some(Value(m) * 60 + Value(sec))
      else None
  }

  /** After a run of digits, the first colon is the one that ends it. */
  lemma FirstColon(s: string, i: nat)
    requires i < |s| && s[i] == ':' && AllDigits(s[..i])
    ensures Find(s, ':', 0) == Some(i)
  {
    assert forall j :: 0 <= j < i ==> s[j] == s[..i][j];
  }

  /** The HUD string determines the time it was made from. */
  lemma ClockRoundTrip(t: nat)
    ensures ParseClock(ClockText(t)) == Some(t)
  {
    var s := ClockText(t);
    var i := |s| - 3;
    FirstColon(s, i);
    var m, sec := s[..i], s[i + 1..];
    assert sec == s[|s| - 2..];
    assert 0 < |m| && AllDigits(m) && |sec| == 2 && AllDigits(sec) && Value(sec) < 60;
  }

  /** Different times show different strings. */
  lemma ClockInjective(t: nat, u: nat)
    requires ClockText(t) == ClockText(u)
    ensures t == u
  {
    ClockRoundTrip(t);
    ClockRoundTrip(u);
  }
}

=== FILE: common.dfy ===
/** Small vocabulary shared by the whole model: optional values, the outcome
    of a JavaScript evaluation that may throw, and the oracles that stand in
    for `Math.random`, `Math.cos` and `Math.sin`. */
module Common {

  datatype Option<+T> = None | Some(value: T)

  /** Either the value a JavaScript expression evaluated to, or the TypeError
      it threw (reading a property of `undefined`). */
  datatype Outcome<+T> = Done(value: T) | TypeError

  /** The double closest to pi, as `Math.PI` holds it. */
  const Pi: real := 3.141592653589793

  /** A stream of `Math.random()` results: draw number k is `rng(k)`. */
  type Rng = nat -> real

  /** What `Math.random` promises of every value it returns. */
  ghost predicate Uniform(rng: Rng) {
    forall k: nat :: 0.0 <= rng(k) < 1.0
  }

  /** `Math.floor(r * n)`: an index in [0, n) for a draw `r` in [0, 1). */
  function Pick(r: real, n: nat): (i: int)
    requires 0.0 <= r < 1.0
    requires n > 0
    ensures 0 <= i < n
    ensures i as real <= r * n as real < i as real + 1.0
  {
    MulBelow(r, n);
    (r * n as real).Floor
  }

  lemma MulBelow(r: real, n: nat)
    requires 0.0 <= r < 1.0
    requires n > 0
    ensures 0.0 <= r * n as real < n as real
  {
  }

  /** The results `Math.cos` and `Math.sin` give; the model never looks
      inside them. */
  datatype Trig = Trig(cos: real -> real, sin: real -> real)
}

=== FILE: enemies.dfy ===
/** Enemies: where `spawnEnemies` puts them and how the frame loop ages
    their animation timers. */
module Enemies {
  import opened Common
  import opened Grid

  /** `{x, y, alive, time, hitTime}`: a position in maze units, whether the
      enemy is still up, its bobbing clock and its hit-flash countdown. */
  datatype Enemy = Enemy(x: real, y: real, alive: bool, time: real, hitTime: real)

  /** `easyEnemies`: the number placed whatever `num` asks for. */
  const Count: nat := 3

  /** The enemy `spawnEnemies` pushes for cell `p`: at its centre, alive,
      with both clocks at zero. */
  function Newborn(p: Pos): (e: Enemy)
    ensures e.alive && e.time == 0.0 && e.hitTime == 0.0
    ensures e.x - 0.5 == p.x as real && e.y - 0.5 == p.y as real
  {
    Enemy(p.x as real + 0.5, p.y as real + 0.5, true, 0.0, 0.0)
  }

  /** One attempt of the rejection loop: `Math.floor(Math.random()*(mazeWidth-2))+1`
      for x, then the same for y, from draws `k` and `k + 1`. */
  function Sample(rng: Rng, k: nat): (p: Pos)
    requires Uniform(rng)
    ensures 1 <= p.x <= W - 2 && 1 <= p.y <= H - 2
  {
    Pos(Pick(rng(k), W - 2) + 1, Pick(rng(k + 1), H - 2) + 1)
  }

  /** The acceptance test `maze[y][x]===0 && (x!==1 && y!==1)`: an open cell
      off row 1 and off column 1, not merely off the start cell. */
  predicate Eligible(g: Grid, p: Pos) {
    IsOpen(g, p) && p.x != 1 && p.y != 1
  }

  /** The rejection loop, given at most `fuel` more attempts: the enemies
      placed so far and the next unused draw, or `None` when the attempts
      run out first. */
  function Spawn(g: Grid, rng: Rng, draw: nat, fuel: nat, placed: seq<Enemy>): Option<(seq<Enemy>, nat)>
    requires Uniform(rng)
    requires |placed| <= Count
    decreases fuel
  {
    if |placed| == Count then Some((placed, draw))
    else if fuel == 0 then None
    else
      var p := Sample(rng, draw);
      Spawn(g, rng, draw + 2, fuel - 1, if Eligible(g, p) then placed + [Newborn(p)] else placed)
  }

  /** `spawnEnemies(num)` with a bound of `fuel` attempts; `num` is ignored. */
  function SpawnEnemies(g: Grid, num: int, rng: Rng, draw: nat, fuel: nat): (r: Option<(seq<Enemy>, nat)>)
    requires Uniform(rng)
    ensures r.Some? ==> |r.value.0| == Count
    ensures r.Some? ==> draw <= r.value.1 <= draw + 2 * fuel
    ensures r.Some? ==> forall i :: 0 <= i < |r.value.0| ==> Placed(g, r.value.0[i])
  {
    SpawnShape(g, rng, draw, fuel, []);
    Spawn(g, rng, draw, fuel, [])
  }

  /** An enemy as `spawnEnemies` leaves it: alive, clocks at zero, at the
      centre of an eligible cell strictly inside the border. */
  ghost predicate Placed(g: Grid, e: Enemy) {
    && e.alive && e.time == 0.0 && e.hitTime == 0.0
    && exists p: Pos :: 1 <= p.x <= W - 2 && 1 <= p.y <= H - 2 && Eligible(g, p) && e == Newborn(p)
  }

  lemma {:induction false} SpawnShape(g: Grid, rng: Rng, draw: nat, fuel: nat, placed: seq<Enemy>)
    requires Uniform(rng)
    requires |placed| <= Count
    requires forall i :: 0 <= i < |placed| ==> Placed(g, placed[i])
    ensures var r := Spawn(g, rng, draw, fuel, placed);
            r.Some? ==> && |r.value.0| == Count
                        && draw <= r.value.1 <= draw + 2 * fuel
                        && forall i :: 0 <= i < |r.value.0| ==> Placed(g, r.value.0[i])
    decreases fuel
  {
    if |placed| < Count && fuel > 0 {
      var p := Sample(rng, draw);
      var placed' := if Eligible(g, p) then placed + [Newborn(p)] else placed;
      forall i | 0 <= i < |placed'|
        ensures Placed(g, placed'[i])
      {
        if i == |placed| {
          assert Eligible(g, p) && placed'[i] == Newborn(p);
        } else {
          assert placed'[i] == placed[i];
        }
      }
      SpawnShape(g, rng, draw + 2, fuel - 1, placed');
    }
  }

  /** The first `n` attempts' cells, in order: the independent description
      of what the loop looks at. */
  function Samples(rng: Rng, draw: nat, n: nat): (ps: seq<Pos>)
    requires Uniform(rng)
    ensures |ps| == n
    decreases n
  {
    if n == 0 then [] else [Sample(rng, draw)] + Samples(rng, draw + 2, n - 1)
  }

  /** The eligible cells among `ps`, in order. */
  function Accepted(g: Grid, ps: seq<Pos>): seq<Pos> {
    if ps == [] then [] else (if Eligible(g, ps[0]) then [ps[0]] else []) + Accepted(g, ps[1..])
  }

  function Newborns(ps: seq<Pos>): (es: seq<Enemy>)
    ensures |es| == |ps|
    ensures forall i :: 0 <= i < |ps| ==> es[i] == Newborn(ps[i])
  {
    seq(|ps|, i requires 0 <= i < |ps| => Newborn(ps[i]))
  }

  /** The loop succeeds within `fuel` attempts exactly when those attempts
      hit at least three eligible cells, and the enemies are then the first
      three of them, in the order drawn. */
  lemma SpawnIsFirstThree(g: Grid, num: int, rng: Rng, draw: nat, fuel: nat)
    requires Uniform(rng)
    ensures var acc := Accepted(g, Samples(rng, draw, fuel));
            && (SpawnEnemies(g, num, rng, draw, fuel).Some? <==> |acc| >= Count)
            && (|acc| >= Count ==> SpawnEnemies(g, num, rng, draw, fuel).value.0 == Newborns(acc[..Count]))
  {
    SpawnAccepts(g, rng, draw, fuel, []);
  }

  lemma {:induction false} SpawnAccepts(g: Grid, rng: Rng, draw: nat, fuel: nat, placed: seq<Enemy>)
    requires Uniform(rng)
    requires |placed| <= Count
    ensures Agrees(placed, Accepted(g, Samples(rng, draw, fuel)), Spawn(g, rng, draw, fuel, placed))
    decreases fuel
  {
    var acc := Accepted(g, Samples(rng, draw, fuel));
    if |placed| == Count {
      assert acc[..0] == [];
      assert placed + Newborns([]) == placed;
    } else if fuel > 0 {
      var p := Sample(rng, draw);
      var rest := Samples(rng, draw + 2, fuel - 1);
      assert Samples(rng, draw, fuel) == [p] + rest;
      assert ([p] + rest)[1..] == rest;
      var acc' := Accepted(g, rest);
      var placed' := if Eligible(g, p) then placed + [Newborn(p)] else placed;
      var r := Spawn(g, rng, draw + 2, fuel - 1, placed');
      assert Spawn(g, rng, draw, fuel, placed) == r;
      SpawnAccepts(g, rng, draw + 2, fuel - 1, placed');
      if Eligible(g, p) {
        assert acc == [p] + acc';
        AgreesCons(placed, p, acc', r);
      } else {
        assert acc == acc';
      }
    }
  }

  /** `r` is what placing the first of `acc` after `placed` gives. */
  ghost predicate Agrees(placed: seq<Enemy>, acc: seq<Pos>, r: Option<(seq<Enemy>, nat)>)
    requires |placed| <= Count
  {
    && (r.Some? <==> |placed| + |acc| >= Count)
    && (|placed| + |acc| >= Count ==> r.value.0 == placed + Newborns(acc[..Count - |placed|]))
  }

  lemma AgreesCons(placed: seq<Enemy>, p: Pos, acc: seq<Pos>, r: Option<(seq<Enemy>, nat)>)
    requires |placed| < Count
    requires Agrees(placed + [Newborn(p)], acc, r)
    ensures Agrees(placed, [p] + acc, r)
  {
    if |placed| + 1 + |acc| >= Count {
      var k := Count - |placed|;
      NewbornsCons(p, acc, k);
      assert placed + [Newborn(p)] + Newborns(acc[..k - 1]) == placed + Newborns(([p] + acc)[..k]);
    }
  }

  lemma NewbornsCons(p: Pos, acc: seq<Pos>, k: nat)
    requires 1 <= k <= |acc| + 1
    ensures Newborns(([p] + acc)[..k]) == [Newborn(p)] + Newborns(acc[..k - 1])
  {
    assert ([p] + acc)[..k] == [p] + acc[..k - 1];
  }

  /** Extra attempts never change a placement that already succeeded. */
  lemma {:induction false} SpawnMoreFuel(g: Grid, rng: Rng, draw: nat, fuel: nat, fuel': nat, placed: seq<Enemy>)
    requires Uniform(rng)
    requires |placed| <= Count
    requires fuel <= fuel'
    requires Spawn(g, rng, draw, fuel, placed).Some?
    ensures Spawn(g, rng, draw, fuel', placed) == Spawn(g, rng, draw, fuel, placed)
    decreases fuel
  {
    if |placed| < Count {
      var p := Sample(rng, draw);
      SpawnMoreFuel(g, rng, draw + 2, fuel - 1, fuel' - 1, if Eligible(g, p) then placed + [Newborn(p)] else placed);
    }
  }

  /** The loop never rejects a repeated cell: a random source that keeps
      returning the same value stacks all three enemies on one cell. */
  lemma SharedCell(g: Grid, num: int, rng: Rng)
    requires forall k :: rng(k) == 0.15
    requires IsOpen(g, Pos(3, 3))
    ensures Uniform(rng)
    ensures SpawnEnemies(g, num, rng, 0, 3) == Some(([Newborn(Pos(3, 3)), Newborn(Pos(3, 3)), Newborn(Pos(3, 3))], 6))
  {
    var n := Newborn(Pos(3, 3));
    assert Pick(0.15, 14) == 2;
    assert Sample(rng, 0) == Pos(3, 3) && Sample(rng, 2) == Pos(3, 3) && Sample(rng, 4) == Pos(3, 3);
    assert Eligible(g, Pos(3, 3));
    assert [] + [n] == [n] && [n] + [n] == [n, n] && [n, n] + [n] == [n, n, n];
    assert Spawn(g, rng, 6, 0, [n, n, n]) == Some(([n, n, n], 6));
    assert Spawn(g, rng, 4, 1, [n, n]) == Spawn(g, rng, 6, 0, [n, n, n]);
    assert Spawn(g, rng, 2, 2, [n]) == Spawn(g, rng, 4, 1, [n, n]);
    assert Spawn(g, rng, 0, 3, []) == Spawn(g, rng, 2, 2, [n]);
  }

  /** The frame loop's timer update for each living enemy: `time += dt` and
      `hitTime = Math.max(0, hitTime - dt)`; dead enemies are skipped. */
  function Age(es: seq<Enemy>, dt: real): (es': seq<Enemy>)
    ensures |es'| == |es|
    ensures forall i :: 0 <= i < |es| && !es[i].alive ==> es'[i] == es[i]
    ensures forall i :: 0 <= i < |es| && es[i].alive ==>
              && es'[i].alive && es'[i].x == es[i].x && es'[i].y == es[i].y
              && es'[i].time == es[i].time + dt
              && es'[i].hitTime >= 0.0
              && (es[i].hitTime >= dt ==> es'[i].hitTime == es[i].hitTime - dt)
              && (es[i].hitTime < dt ==> es'[i].hitTime == 0.0)
  {
    seq(|es|, i requires 0 <= i < |es| =>
      var e := es[i];
      if !e.alive then e
      else e.(time := e.time + dt, hitTime := if e.hitTime - dt > 0.0 then e.hitTime - dt else 0.0))
  }

  function AliveCount(es: seq<Enemy>): (n: nat)
    ensures n <= |es|
  {
    if es == [] then 0 else (if es[0].alive then 1 else 0) + AliveCount(es[1..])
  }

  /** For non-negative frame times the flash countdown stays non-negative and
      never grows. */
  lemma AgeCountsDown(es: seq<Enemy>, dt: real)
    requires dt >= 0.0
    requires forall i :: 0 <= i < |es| ==> es[i].hitTime >= 0.0
    ensures forall i :: 0 <= i < |es| ==> 0.0 <= Age(es, dt)[i].hitTime <= es[i].hitTime
    ensures AliveCount(Age(es, dt)) == AliveCount(es)
  {
    AgeKeepsAlive(es, dt);
  }

  lemma {:induction false} AgeKeepsAlive(es: seq<Enemy>, dt: real)
    ensures AliveCount(Age(es, dt)) == AliveCount(es)
    decreases |es|
  {
    if es != [] {
      assert Age(es, dt)[1..] == Age(es[1..], dt);
      AgeKeepsAlive(es[1..], dt);
    }
  }

  /** No living enemy ever shows the hit flash: spawned enemies start at 0,
      a kill sets 0.3 only on an enemy it also marks dead, and ageing keeps
      a living enemy's countdown at 0. */
  ghost predicate NoFlash(es: seq<Enemy>) {
    forall i :: 0 <= i < |es| && es[i].alive ==> es[i].hitTime == 0.0
  }

  lemma AgeNoFlash(es: seq<Enemy>, dt: real)
    requires dt >= 0.0
    requires NoFlash(es)
    ensures NoFlash(Age(es, dt))
  {
  }

  lemma SpawnNoFlash(g: Grid, num: int, rng: Rng, draw: nat, fuel: nat)
    requires Uniform(rng)
    requires SpawnEnemies(g, num, rng, draw, fuel).Some?
    ensures NoFlash(SpawnEnemies(g, num, rng, draw, fuel).value.0)
  {
  }
}

=== FILE: exit_search.dfy ===
/** The second half of `generateMaze`: a breadth-first search from the start
    cell that keeps the first dequeued cell of greatest depth as the exit. */
module ExitSearch {
  import opened Grid

  /** A queue entry `[x, y, d]`. */
  datatype Visit = Visit(pos: Pos, depth: nat)

  /** `[[0,1],[1,0],[0,-1],[-1,0]]`, the order in which neighbours are queued. */
  const Dirs: seq<(int, int)> := [(0, 1), (1, 0), (0, -1), (-1, 0)]

  lemma AdjacentIsShift(p: Pos, q: Pos)
    requires Adjacent(p, q)
    ensures exists i :: 0 <= i < |Dirs| && q == Shift(p, Dirs[i])
  {
    if q == Shift(p, Dirs[0]) {
    } else if q == Shift(p, Dirs[1]) {
    } else if q == Shift(p, Dirs[2]) {
    } else {
      assert q == Shift(p, Dirs[3]);
    }
  }

  /** `visited` is exactly the set of queued cells, and `index` tells where
      each of them sits in the queue; so no cell is queued twice. */
  ghost predicate Indexed(visited: set<Pos>, queue: seq<Visit>, index: map<Pos, nat>) {
    && index.Keys == visited
    && (forall p :: p in index ==> index[p] < |queue| && queue[index[p]].pos == p)
    && (forall i :: 0 <= i < |queue| ==> queue[i].pos in index && index[queue[i].pos] == i)
  }

  /** Entries queued while expanding `cur`: fresh cells one step further,
      each a walkable neighbour of `cur`. */
  ghost predicate Added(g: Grid, cur: Visit, visited: set<Pos>, added: seq<Visit>) {
    forall v :: v in added ==>
      v.pos !in visited && v.depth == cur.depth + 1 && Walkable(g, v.pos) && Adjacent(cur.pos, v.pos)
  }

  /** What the inner loop has done so far, starting from `visited`, `queue`
      and `index`: only fresh walkable neighbours of `cur` were appended. */
  ghost predicate Grown(g: Grid, cur: Visit, visited: set<Pos>, queue: seq<Visit>, index: map<Pos, nat>,
                        visited': set<Pos>, queue': seq<Visit>, index': map<Pos, nat>) {
    && Indexed(visited', queue', index')
    && queue <= queue' && visited <= visited'
    && (visited' == visited <==> queue' == queue)
    && (forall p :: p in visited' - visited ==> InGrid(p))
    && (forall p :: p in index ==> p in index' && index'[p] == index[p])
    && Added(g, cur, visited, queue'[|queue|..])
  }

  /** Queueing one more fresh walkable neighbour keeps `Grown`. */
  lemma GrownPush(g: Grid, cur: Visit, visited: set<Pos>, queue: seq<Visit>, index: map<Pos, nat>,
                  visited': set<Pos>, queue': seq<Visit>, index': map<Pos, nat>, v: Visit)
    requires Grown(g, cur, visited, queue, index, visited', queue', index')
    requires v.pos !in visited'
    requires v.depth == cur.depth + 1 && Walkable(g, v.pos) && Adjacent(cur.pos, v.pos)
    ensures Grown(g, cur, visited, queue, index, visited' + {v.pos}, queue' + [v], index'[v.pos := |queue'|])
  {
    IndexedPush(visited', queue', index', v);
    AddedPush(g, cur, visited, |queue|, queue', v);
  }

  lemma IndexedPush(visited: set<Pos>, queue: seq<Visit>, index: map<Pos, nat>, v: Visit)
    requires Indexed(visited, queue, index)
    requires v.pos !in visited
    ensures Indexed(visited + {v.pos}, queue + [v], index[v.pos := |queue|])
  {
    var queue' := queue + [v];
    forall i | 0 <= i < |queue'|
      ensures queue'[i].pos in index[v.pos := |queue|] && index[v.pos := |queue|][queue'[i].pos] == i
    {
      if i < |queue| {
        assert queue'[i] == queue[i];
      }
    }
  }

  lemma AddedPush(g: Grid, cur: Visit, visited: set<Pos>, n: nat, queue: seq<Visit>, v: Visit)
    requires n <= |queue|
    requires Added(g, cur, visited, queue[n..])
    requires v.pos !in visited && v.depth == cur.depth + 1 && Walkable(g, v.pos) && Adjacent(cur.pos, v.pos)
    ensures Added(g, cur, visited, (queue + [v])[n..])
  {
    assert (queue + [v])[n..] == queue[n..] + [v];
  }

  /** The inner `for` loop: queues every walkable, unvisited neighbour of
      `cur` one step deeper, in the order of `Dirs`. */
  method QueueNeighbours(g: Grid, cur: Visit, visited: set<Pos>, queue: seq<Visit>, ghost index: map<Pos, nat>)
    returns (visited': set<Pos>, queue': seq<Visit>, ghost index': map<Pos, nat>)
    requires Indexed(visited, queue, index)
    ensures Indexed(visited', queue', index')
    ensures queue <= queue' && visited <= visited'
    ensures visited' == visited <==> queue' == queue
    ensures forall p :: p in visited' - visited ==> InGrid(p)
    ensures forall i :: |queue| <= i < |queue'| ==> queue'[i].pos !in visited
    ensures forall p :: p in index ==> index'[p] == index[p]
    ensures forall i :: |queue| <= i < |queue'| ==>
              queue'[i].depth == cur.depth + 1 && Walkable(g, queue'[i].pos) && Adjacent(cur.pos, queue'[i].pos)
    ensures forall q :: Walkable(g, q) && Adjacent(cur.pos, q) ==> q in visited'
  {
    visited', queue', index' := visited, queue, index;
    assert queue'[|queue|..] == [];
    var k := 0;
    while k < |Dirs|
      invariant 0 <= k <= |Dirs|
      invariant Grown(g, cur, visited, queue, index, visited', queue', index')
      invariant forall j :: 0 <= j < k && Walkable(g, Shift(cur.pos, Dirs[j])) ==> Shift(cur.pos, Dirs[j]) in visited'
    {
      var q := Shift(cur.pos, Dirs[k]);
      if Interior(q) && IsOpen(g, q) && q !in visited' {
        var v := Visit(q, cur.depth + 1);
        GrownPush(g, cur, visited, queue, index, visited', queue', index', v);
        visited' := visited' + {q};
        index' := index'[q := |queue'|];
        queue' := queue' + [v];
      }
      k := k + 1;
    }
    GrownDone(g, cur, visited, queue, index, visited', queue', index');
    forall q | Walkable(g, q) && Adjacent(cur.pos, q)
      ensures q in visited'
    {
      AdjacentIsShift(cur.pos, q);
    }
  }

  lemma GrownDone(g: Grid, cur: Visit, visited: set<Pos>, queue: seq<Visit>, index: map<Pos, nat>,
                  visited': set<Pos>, queue': seq<Visit>, index': map<Pos, nat>)
    requires Grown(g, cur, visited, queue, index, visited', queue', index')
    ensures forall i :: |queue| <= i < |queue'| ==> queue'[i].pos !in visited
    ensures forall i :: |queue| <= i < |queue'| ==>
              queue'[i].depth == cur.depth + 1 && Walkable(g, queue'[i].pos) && Adjacent(cur.pos, queue'[i].pos)
  {
    forall i | |queue| <= i < |queue'|
      ensures queue'[i] in queue'[|queue|..]
    {
      assert queue'[i] == queue'[|queue|..][i - |queue|];
    }
  }

  /** Queue depths never decrease, and none lies more than one level below
      the entry at the head. */
  ghost predicate Layered(queue: seq<Visit>, head: nat) {
    && (forall i, j :: 0 <= i <= j < |queue| ==> queue[i].depth <= queue[j].depth)
    && (head < |queue| ==> forall i :: 0 <= i < |queue| ==> queue[i].depth <= queue[head].depth + 1)
  }

  /** Every walkable neighbour of an already expanded entry is queued, at
      most one level deeper than that entry. */
  ghost predicate Closed(g: Grid, queue: seq<Visit>, index: map<Pos, nat>, head: nat) {
    forall k, q :: 0 <= k < head && k < |queue| && Walkable(g, q) && Adjacent(queue[k].pos, q) ==>
      q in index && index[q] < |queue| && queue[index[q]].depth <= queue[k].depth + 1
  }

  /** Every entry's depth is the length of some route to it. */
  ghost predicate Routed(g: Grid, queue: seq<Visit>) {
    && (forall i :: 0 <= i < |queue| ==> ReachableIn(g, queue[i].pos, queue[i].depth))
    && (forall i :: 0 < i < |queue| ==> Walkable(g, queue[i].pos))
  }

  /** `exit` is the first entry of greatest depth among those dequeued. */
  ghost predicate FirstDeepest(queue: seq<Visit>, head: nat, exit: Visit, fi: nat) {
    && fi < |queue| && queue[fi] == exit && fi <= head && (head > 0 ==> fi < head)
    && (forall k :: 0 <= k < head && k < |queue| ==> queue[k].depth <= exit.depth)
    && (forall k :: 0 <= k < fi ==> queue[k].depth < exit.depth)
  }

  /** Dequeuing the head entry keeps `exit` the first deepest one. */
  lemma DequeueKeeps(before: seq<Visit>, queue: seq<Visit>, head: nat, exit: Visit, fi: nat, exit': Visit, fi': nat)
    requires head < |before| && before <= queue
    requires FirstDeepest(before, head, exit, fi)
    requires before[head].depth > exit.depth ==> exit' == before[head] && fi' == head
    requires before[head].depth <= exit.depth ==> exit' == exit && fi' == fi
    ensures FirstDeepest(queue, head + 1, exit', fi')
  {
    assert forall k :: 0 <= k < |before| ==> queue[k] == before[k];
  }

  /** What expanding the head entry does to the search's invariants. */
  lemma ExpandKeeps(g: Grid, before: seq<Visit>, oldIndex: map<Pos, nat>, queue: seq<Visit>, index: map<Pos, nat>, head: nat)
    requires head < |before|
    requires forall p :: p in oldIndex ==> oldIndex[p] < |before| && before[oldIndex[p]].pos == p
    requires forall p :: p in index ==> index[p] < |queue| && queue[index[p]].pos == p
    requires Layered(before, head) && Closed(g, before, oldIndex, head) && Routed(g, before)
    requires before <= queue
    requires forall p :: p in oldIndex ==> p in index && index[p] == oldIndex[p]
    requires forall i :: |before| <= i < |queue| ==>
               queue[i].depth == before[head].depth + 1 && Walkable(g, queue[i].pos) && Adjacent(before[head].pos, queue[i].pos)
    requires forall q :: Walkable(g, q) && Adjacent(before[head].pos, q) ==> q in index
    ensures Layered(queue, head + 1) && Closed(g, queue, index, head + 1) && Routed(g, queue)
  {
    var cur := before[head];
    forall i | |before| <= i < |queue|
      ensures ReachableIn(g, queue[i].pos, queue[i].depth)
    {
      ExtendRoute(g, cur.pos, cur.depth, queue[i].pos);
    }
    forall k, q | 0 <= k < head + 1 && k < |queue| && Walkable(g, q) && Adjacent(queue[k].pos, q)
      ensures q in index && index[q] < |queue| && queue[index[q]].depth <= queue[k].depth + 1
    {
      assert queue[k] == before[k];
      if q in oldIndex {
        assert queue[index[q]] == before[oldIndex[q]];
      }
    }
  }

  /** The invariant of the search loop. */
  ghost predicate Searching(g: Grid, visited: set<Pos>, queue: seq<Visit>, index: map<Pos, nat>, head: nat, exit: Visit, fi: nat) {
    && head <= |queue| && |queue| > 0 && queue[0] == Visit(Start, 0)
    && Indexed(visited, queue, index)
    && visited <= Cells()
    && Layered(queue, head) && Closed(g, queue, index, head) && Routed(g, queue)
    && FirstDeepest(queue, head, exit, fi)
  }

  /** One turn of the `while` loop: `queue.shift()`, the `farthest` update,
      and the queueing of the dequeued cell's neighbours. */
  method Dequeue(g: Grid, visited: set<Pos>, queue: seq<Visit>, head: nat, exit: Visit, ghost index: map<Pos, nat>, ghost fi: nat)
    returns (visited': set<Pos>, queue': seq<Visit>, head': nat, exit': Visit, ghost index': map<Pos, nat>, ghost fi': nat)
    requires head < |queue|
    requires Searching(g, visited, queue, index, head, exit, fi)
    ensures Searching(g, visited', queue', index', head', exit', fi')
    ensures head' == head + 1
    ensures Unvisited(visited') < Unvisited(visited) || (visited' == visited && |queue'| == |queue|)
  {
    var cur := queue[head];
    head' := head + 1;
    exit', fi' := exit, fi;
    if cur.depth > exit.depth {
      exit' := cur;
      fi' := head;
    }
    visited', queue', index' := QueueNeighbours(g, cur, visited, queue, index);
    ExpandKeeps(g, queue, index, queue', index', head);
    DequeueKeeps(queue, queue', head, exit, fi, exit', fi');
    forall p | p in visited'
      ensures p in Cells()
    {
      if p !in visited {
        CellsHold(p);
      }
    }
    if queue' != queue {
      var p := queue'[|queue|].pos;
      CellsHold(p);
      FewerUnvisited(visited, visited', p);
    }
  }

  /** How many cells of the grid the search has not reached yet. */
  ghost function Unvisited(visited: set<Pos>): nat {
    |Cells() - visited|
  }

  /** Reaching one more cell of the grid shrinks the unvisited count. */
  lemma FewerUnvisited(visited: set<Pos>, visited': set<Pos>, p: Pos)
    requires visited <= visited' && p in visited' && p !in visited && p in Cells()
    ensures Unvisited(visited') < Unvisited(visited)
  {
    var a, b := Cells() - visited', Cells() - visited;
    assert a <= b - {p};
    SubsetCard(a, b - {p});
  }


  /** Breadth-first search from `Start` over walkable cells (script.js:90-106).
      `order` is every entry the queue ever held, in dequeue order; `exit` is
      the entry that ends up in `farthest`. */
  method FindExit(g: Grid) returns (exit: Visit, order: seq<Visit>)
    ensures |order| > 0 && order[0] == Visit(Start, 0)
    ensures exit.pos == Start || Walkable(g, exit.pos)
    // `exit` is the first entry of greatest depth: the update uses `>`
    ensures exists j :: 0 <= j < |order| && order[j] == exit && forall k :: 0 <= k < j ==> order[k].depth < exit.depth
    ensures forall i :: 0 <= i < |order| ==> order[i].depth <= exit.depth
    // every cell is dequeued at most once, at a depth some route realises
    ensures forall i, j :: 0 <= i < j < |order| ==> order[i].pos != order[j].pos
    ensures forall i :: 0 <= i < |order| ==> ReachableIn(g, order[i].pos, order[i].depth)
    // every reachable cell is dequeued, no deeper than its shortest route
    ensures forall p, n :: ReachableIn(g, p, n) ==>
              exists i :: 0 <= i < |order| && order[i].pos == p && order[i].depth <= n
    // so the exit is a farthest cell: everything reachable is reachable in
    // at most `exit.depth` steps, and no route to the exit is shorter
    ensures forall p :: Reachable(g, p) ==> exists n: nat :: n <= exit.depth && ReachableIn(g, p, n)
    ensures forall n: nat :: ReachableIn(g, exit.pos, n) ==> exit.depth <= n
  {
    ghost var index, fi;
    var visited;
    visited, order, exit, index, fi := Search(g);
    Finished(g, visited, order, index, exit, fi);
    Farthest(g, exit, order);
  }

  /** A complete search order whose exit is one of its entries of greatest
      depth names a cell at the greatest shortest-route distance. */
  lemma Farthest(g: Grid, exit: Visit, order: seq<Visit>)
    requires exists j :: 0 <= j < |order| && order[j] == exit
    requires forall i :: 0 <= i < |order| ==> order[i].depth <= exit.depth
    requires forall i, j :: 0 <= i < j < |order| ==> order[i].pos != order[j].pos
    requires forall i :: 0 <= i < |order| ==> ReachableIn(g, order[i].pos, order[i].depth)
    requires forall p, n :: ReachableIn(g, p, n) ==>
               exists i :: 0 <= i < |order| && order[i].pos == p && order[i].depth <= n
    ensures forall p :: Reachable(g, p) ==> exists n: nat :: n <= exit.depth && ReachableIn(g, p, n)
    ensures forall n: nat :: ReachableIn(g, exit.pos, n) ==> exit.depth <= n
  {
    forall p | Reachable(g, p)
      ensures exists n: nat :: n <= exit.depth && ReachableIn(g, p, n)
    {
      var m := ReachableSomeLength(g, p);
      var i :| 0 <= i < |order| && order[i].pos == p && order[i].depth <= m;
      assert ReachableIn(g, p, order[i].depth);
    }
    var j :| 0 <= j < |order| && order[j] == exit;
    forall n: nat | ReachableIn(g, exit.pos, n)
      ensures exit.depth <= n
    {
      var i :| 0 <= i < |order| && order[i].pos == exit.pos && order[i].depth <= n;
      assert order[i].pos == order[j].pos;
    }
  }

  /** The `while` loop of the search, run from the start cell until the
      queue is exhausted. */
  method Search(g: Grid) returns (visited: set<Pos>, queue: seq<Visit>, exit: Visit, ghost index: map<Pos, nat>, ghost fi: nat)
    ensures Searching(g, visited, queue, index, |queue|, exit, fi)
  {
    visited := {Start};
    queue := [Visit(Start, 0)];
    index := map[Start := 0];
    var head := 0;
    exit := Visit(Start, 0);
    fi := 0;
    Begun(g);
    while head < |queue|
      invariant Searching(g, visited, queue, index, head, exit, fi)
      decreases Unvisited(visited), |queue| - head
    {
      visited, queue, head, exit, index, fi := Dequeue(g, visited, queue, head, exit, index, fi);
    }
  }

  lemma Begun(g: Grid)
    ensures Searching(g, {Start}, [Visit(Start, 0)], map[Start := 0], 0, Visit(Start, 0), 0)
  {
    StartReachable(g);
    CellsHold(Start);
  }

  /** What the search promises once the queue is exhausted. */
  lemma Finished(g: Grid, visited: set<Pos>, order: seq<Visit>, index: map<Pos, nat>, exit: Visit, fi: nat)
    requires Searching(g, visited, order, index, |order|, exit, fi)
    ensures |order| > 0 && order[0] == Visit(Start, 0)
    ensures exit.pos == Start || Walkable(g, exit.pos)
    ensures exists j :: 0 <= j < |order| && order[j] == exit && forall k :: 0 <= k < j ==> order[k].depth < exit.depth
    ensures forall i :: 0 <= i < |order| ==> order[i].depth <= exit.depth
    ensures forall i, j :: 0 <= i < j < |order| ==> order[i].pos != order[j].pos
    ensures forall i :: 0 <= i < |order| ==> ReachableIn(g, order[i].pos, order[i].depth)
    ensures forall p, n :: ReachableIn(g, p, n) ==>
              exists i :: 0 <= i < |order| && order[i].pos == p && order[i].depth <= n
  {
    if fi > 0 {
      assert Walkable(g, order[fi].pos);
    }
    forall i, j | 0 <= i < j < |order|
      ensures order[i].pos != order[j].pos
    {
      assert index[order[i].pos] == i && index[order[j].pos] == j;
    }
    forall p, n | ReachableIn(g, p, n)
      ensures exists i :: 0 <= i < |order| && order[i].pos == p && order[i].depth <= n
    {
      ShortestBound(g, order, index, p, n);
    }
  }

  /** Once every queued cell has been expanded, each reachable cell is queued
      no deeper than any route to it. */
  lemma {:induction false} ShortestBound(g: Grid, queue: seq<Visit>, index: map<Pos, nat>, p: Pos, n: nat)
    requires |queue| > 0 && queue[0] == Visit(Start, 0)
    requires forall q :: q in index ==> index[q] < |queue| && queue[index[q]].pos == q
    requires forall i :: 0 <= i < |queue| ==> queue[i].pos in index && index[queue[i].pos] == i
    requires Closed(g, queue, index, |queue|)
    requires ReachableIn(g, p, n)
    ensures p in index && queue[index[p]].depth <= n
    decreases n
  {
    var ps :| RouteTo(g, ps, p) && |ps| == n + 1;
    if n == 0 {
      assert p == Start && index[Start] == 0;
    } else {
      var prev := ps[n - 1];
      assert RouteTo(g, ps[..n], prev);
      ShortestBound(g, queue, index, prev, n - 1);
      var k := index[prev];
      assert Walkable(g, p) && Adjacent(queue[k].pos, p);
    }
  }

  /** The exit stays on the start cell exactly when the start has no
      walkable neighbour (script.js:93-98 with an empty search). */
  lemma ExitIsStartIff(g: Grid, exit: Visit, order: seq<Visit>)
    requires |order| > 0 && order[0] == Visit(Start, 0)
    requires exists j :: 0 <= j < |order| && order[j] == exit
    requires forall i :: 0 <= i < |order| ==> order[i].depth <= exit.depth
    requires forall i :: 0 <= i < |order| ==> ReachableIn(g, order[i].pos, order[i].depth)
    requires forall p, n :: ReachableIn(g, p, n) ==>
               exists i :: 0 <= i < |order| && order[i].pos == p && order[i].depth <= n
    ensures exit == Visit(Start, 0) <==> forall q :: Adjacent(Start, q) ==> !Walkable(g, q)
  {
    if exists q :: Adjacent(Start, q) && Walkable(g, q) {
      var q :| Adjacent(Start, q) && Walkable(g, q);
      StartReachable(g);
      ExtendRoute(g, Start, 0, q);
      var i :| 0 <= i < |order| && order[i].pos == q && order[i].depth <= 1;
      if order[i].depth == 0 {
        ZeroStepsIsStart(g, q);
        assert false;
      }
    } else {
      var j :| 0 <= j < |order| && order[j] == exit;
      if exit.depth > 0 {
        FirstStep(g, exit.pos, exit.depth);
        assert false;
      } else {
        ZeroStepsIsStart(g, exit.pos);
      }
    }
  }
}

=== FILE: game.dfy ===
/** The end-of-frame completion test that ties the enemies to the session:
    `enemies.every(e=>!e.alive)` and the player within 1 of the exit. */
module Game {
  import opened Grid
  import opened Enemies
  import opened Bullets
  import Session

  /** No enemy alive, the form the completion test uses. */
  predicate AllDead(es: seq<Enemy>) {
    forall i :: 0 <= i < |es| ==> !es[i].alive
  }

  /** The two ways of saying "no enemy left" agree: the HUD count is zero
      exactly when `every` finds them all dead. */
  lemma {:induction false} AllDeadIffNoneAlive(es: seq<Enemy>)
    ensures AllDead(es) <==> AliveCount(es) == 0
    decreases |es|
  {
    if es != [] {
      AllDeadIffNoneAlive(es[1..]);
      assert AllDead(es) <==> !es[0].alive && AllDead(es[1..]) by {
        if !es[0].alive && AllDead(es[1..]) {
          forall i | 0 <= i < |es| ensures !es[i].alive {
            if i > 0 { assert es[i] == es[1..][i - 1]; }
          }
        }
      }
    }
  }

  /** `Math.hypot(player.x-exitX, player.y-exitY) < 1` with the exit at the
      centre of cell `exit`, squared. */
  predicate AtExit(px: real, py: real, exit: Pos) {
    var dx := px - (exit.x as real + 0.5);
    var dy := py - (exit.y as real + 0.5);
    dx * dx + dy * dy < 1.0
  }

  /** Whether the level is complete at the end of a frame. */
  function Cleared(es: seq<Enemy>, px: real, py: real, exit: Pos): (r: bool)
    ensures r <==> AliveCount(es) == 0 && AtExit(px, py, exit)
  {
    AllDeadIffNoneAlive(es);
    AllDead(es) && AtExit(px, py, exit)
  }

  /** Standing in the exit cell is close enough. */
  lemma InExitCell(px: real, py: real, exit: Pos)
    requires exit.x as real <= px < exit.x as real + 1.0
    requires exit.y as real <= py < exit.y as real + 1.0
    ensures AtExit(px, py, exit)
  {
    var dx := px - (exit.x as real + 0.5);
    var dy := py - (exit.y as real + 0.5);
    assert dx * dx <= 0.25 by { Square(dx); }
    assert dy * dy <= 0.25 by { Square(dy); }
  }

  lemma Square(d: real)
    requires -0.5 <= d < 0.5
    ensures d * d <= 0.25
  {
    if d >= 0.0 {
      assert d * d <= 0.5 * d;
    } else {
      assert d * d <= -0.5 * d;
    }
  }

  /** A freshly spawned wave cannot be cleared. */
  lemma NewWaveNotCleared(es: seq<Enemy>, px: real, py: real, exit: Pos)
    requires |es| == Count && forall i :: 0 <= i < |es| ==> es[i].alive
    ensures !Cleared(es, px, py, exit)
  {
    assert !AllDead(es) by { assert es[0].alive; }
    AllDeadIffNoneAlive(es);
  }

  /** One frame of a running game, end to end. `r` is the bullets' result,
      and what it needs of `r` is what `UpdateBullets` (or the corrected
      `UpdateBulletsOnce`) ensures: its score grows by exactly the enemies
      that went down. Then the session score grows by the same kills, so
      the two scores stay equal, and the game stops exactly when the
      completion test holds. */
  lemma FrameKeepsScore(s: Session.Session, st: Shot, r: Shot, px: real, py: real, exit: Pos)
    requires s.started && !s.paused && s.score == st.score
    requires AliveCount(r.enemies) <= AliveCount(st.enemies)
    requires r.score == st.score + (AliveCount(st.enemies) - AliveCount(r.enemies))
    ensures var done := Cleared(r.enemies, px, py, exit);
            var s' := Session.Frame(s, AliveCount(st.enemies) - AliveCount(r.enemies), done);
            && (!done ==> s'.started && s'.score == r.score)
            && (done <==> !s'.started)
  {
  }
}

=== FILE: grid.dfy ===
/** The maze grid every other part of the game reads: a 16 x 16 array of
    cells indexed `maze[y][x]`, where the source stores 1 for a wall and 0
    for floor. */
module Grid {

  /** `w` and `h` in `generateMaze`; once the first `generateMaze` has run
      (on the first start click) they are also `mazeWidth` and
      `mazeHeight`. */
  const W: int := 16
  const H: int := 16

  datatype Cell = Wall | Floor

  datatype Pos = Pos(x: int, y: int)

  type Grid = seq<seq<Cell>>

  /** `Math.floor(startPoint)`: the cell the player spawns in. */
  const Start: Pos := Pos(1, 1)

  predicate WellFormed(g: Grid) {
    |g| == H && forall y :: 0 <= y < |g| ==> |g[y]| == W
  }

  predicate InGrid(p: Pos) {
    0 <= p.x < W && 0 <= p.y < H
  }

  /** The bounds test of the carving filter and of the exit search:
      `nx > 0 && ny > 0 && nx < w-1 && ny < h-1`. */
  predicate Interior(p: Pos) {
    0 < p.x < W - 1 && 0 < p.y < H - 1
  }

  /** `maze[p.y][p.x] === 0`; a cell outside the array is not floor. */
  predicate IsOpen(g: Grid, p: Pos) {
    0 <= p.y < |g| && 0 <= p.x < |g[p.y]| && g[p.y][p.x] == Floor
  }

  /** A cell the exit search may step onto. */
  predicate Walkable(g: Grid, p: Pos) {
    Interior(p) && IsOpen(g, p)
  }

  /** `maze[p.y][p.x] === 1`; a cell outside the array is not a wall either. */
  predicate IsWall(g: Grid, p: Pos) {
    0 <= p.y < |g| && 0 <= p.x < |g[p.y]| && g[p.y][p.x] == Wall
  }

  function Shift(p: Pos, d: (int, int)): Pos {
    Pos(p.x + d.0, p.y + d.1)
  }

  /** The cells of the grid, as a finite set. */
  function Cells(): set<Pos> {
    set x: int, y: int | 0 <= x < W && 0 <= y < H :: Pos(x, y)
  }

  lemma CellsHold(p: Pos)
    requires InGrid(p)
    ensures p in Cells()
  {
    assert p == Pos(p.x, p.y);
  }

  lemma SubsetCard<T>(a: set<T>, b: set<T>)
    requires a <= b
    ensures |a| <= |b|
  {
    assert b == a + (b - a);
  }

  predicate Adjacent(p: Pos, q: Pos) {
    (p.x == q.x && (p.y - q.y == 1 || q.y - p.y == 1)) ||
    (p.y == q.y && (p.x - q.x == 1 || q.x - p.x == 1))
  }

  /** A grid whose every cell is `c`. */
  function Filled(c: Cell): (g: Grid)
    ensures WellFormed(g)
    ensures forall p :: InGrid(p) ==> (IsOpen(g, p) <==> c == Floor)
  {
    seq(H, _ => seq(W, _ => c))
  }

  /** `maze[p.y][p.x] = 0`. */
  function Carve(g: Grid, p: Pos): (g': Grid)
    requires WellFormed(g)
    requires InGrid(p)
    ensures WellFormed(g')
    ensures IsOpen(g', p)
    ensures forall q :: q != p ==> (IsOpen(g', q) <==> IsOpen(g, q))
    ensures forall q :: q != p ==> (IsWall(g', q) <==> IsWall(g, q))
  {
    g[p.y := g[p.y][p.x := Floor]]
  }

  /** A walk from `Start` that ends at `p`, moving one cell up, down, left
      or right at a time and landing on a walkable cell at every step. The
      first cell is `Start` itself, whatever it holds, as in the exit search,
      which begins there without looking at it. */
  ghost predicate RouteTo(g: Grid, ps: seq<Pos>, p: Pos) {
    && |ps| > 0
    && ps[0] == Start
    && ps[|ps| - 1] == p
    && (forall i :: 0 < i < |ps| ==> Walkable(g, ps[i]))
    && (forall i :: 0 < i < |ps| ==> Adjacent(ps[i - 1], ps[i]))
  }

  /** A route stays a route when more cells are opened. */
  lemma RouteGrows(g: Grid, g': Grid, ps: seq<Pos>, p: Pos)
    requires RouteTo(g, ps, p)
    requires forall q :: IsOpen(g, q) ==> IsOpen(g', q)
    ensures RouteTo(g', ps, p)
  {
    forall i | 0 < i < |ps|
      ensures Walkable(g', ps[i])
    {
      assert Walkable(g, ps[i]);
    }
  }

  /** `p` can be reached from `Start` in exactly `n` steps. */
  ghost predicate ReachableIn(g: Grid, p: Pos, n: nat) {
    exists ps :: RouteTo(g, ps, p) && |ps| == n + 1
  }

  /** `p` is 4-connected to `Start` through walkable cells. */
  ghost predicate Reachable(g: Grid, p: Pos) {
    exists ps :: RouteTo(g, ps, p)
  }

  lemma StartReachable(g: Grid)
    ensures ReachableIn(g, Start, 0)
    ensures Reachable(g, Start)
  {
    assert RouteTo(g, [Start], Start);
  }

  /** One more step onto a walkable neighbour extends a route. */
  lemma ExtendRoute(g: Grid, p: Pos, n: nat, q: Pos)
    requires ReachableIn(g, p, n)
    requires Walkable(g, q) && Adjacent(p, q)
    ensures ReachableIn(g, q, n + 1)
    ensures Reachable(g, q)
  {
    var ps :| RouteTo(g, ps, p) && |ps| == n + 1;
    var qs := ps + [q];
    assert RouteTo(g, qs, q);
  }

  /** Opening cells never cuts a cell off. */
  lemma ReachableGrows(g: Grid, g': Grid, p: Pos)
    requires Reachable(g, p)
    requires forall q :: IsOpen(g, q) ==> IsOpen(g', q)
    ensures Reachable(g', p)
  {
    var ps :| RouteTo(g, ps, p);
    RouteGrows(g, g', ps, p);
  }

  /** A reachable cell has a route of some definite length. */
  lemma ReachableSomeLength(g: Grid, p: Pos) returns (n: nat)
    requires Reachable(g, p)
    ensures ReachableIn(g, p, n)
  {
    var ps :| RouteTo(g, ps, p);
    n := |ps| - 1;
  }

  /** A route cannot be shorter than the Manhattan distance it covers. */
  lemma {:induction false} RouteCoversDistance(g: Grid, p: Pos, n: nat)
    requires ReachableIn(g, p, n)
    ensures Distance(Start, p) <= n
    decreases n
  {
    var ps :| RouteTo(g, ps, p) && |ps| == n + 1;
    if n > 0 {
      var prev := ps[n - 1];
      assert RouteTo(g, ps[..n], prev);
      RouteCoversDistance(g, prev, n - 1);
      assert Adjacent(prev, p);
    }
  }

  function Abs(i: int): nat {
    if i < 0 then -i else i
  }

  function Distance(p: Pos, q: Pos): nat {
    Abs(p.x - q.x) + Abs(p.y - q.y)
  }

  /** A route of no steps is the start itself. */
  lemma ZeroStepsIsStart(g: Grid, p: Pos)
    requires ReachableIn(g, p, 0)
    ensures p == Start
  {
    var ps :| RouteTo(g, ps, p) && |ps| == 1;
  }

  /** A route of at least one step leaves the start through a walkable neighbour. */
  lemma FirstStep(g: Grid, p: Pos, n: nat)
    requires ReachableIn(g, p, n)
    requires n > 0
    ensures exists q :: Walkable(g, q) && Adjacent(Start, q)
  {
    var ps :| RouteTo(g, ps, p) && |ps| == n + 1;
    assert Walkable(g, ps[1]) && Adjacent(ps[0], ps[1]);
  }
}

=== FILE: maze.dfy ===
/** The first half of `generateMaze`: a randomised depth-first carve of a
    16 x 16 block of walls, followed by the exit search. */
module Maze {
  import opened Common
  import opened Grid
  import opened ExitSearch

  /** `[[0,2],[2,0],[0,-2],[-2,0]]`: the carver jumps two cells at a time. */
  const CarveDirs: seq<(int, int)> := [(0, 2), (2, 0), (0, -2), (-2, 0)]

  /** The `dirs.filter` callback: the cell two steps away is inside the
      border and still a wall. */
  predicate Fresh(g: Grid, p: Pos, d: (int, int)) {
    Interior(Shift(p, d)) && IsWall(g, Shift(p, d))
  }

  /** `dirs.filter(...)` over the directions `ds`, keeping their order. */
  function Keep(g: Grid, p: Pos, ds: seq<(int, int)>): (r: seq<(int, int)>)
    ensures forall d :: d in r <==> d in ds && Fresh(g, p, d)
    ensures |r| <= |ds|
  {
    if ds == [] then []
    else (if Fresh(g, p, ds[0]) then [ds[0]] else []) + Keep(g, p, ds[1..])
  }

  /** Filtering a concatenation filters each part: `Keep` visits the
      directions strictly in order. */
  lemma {:induction false} KeepAppend(g: Grid, p: Pos, ds: seq<(int, int)>, es: seq<(int, int)>)
    ensures Keep(g, p, ds + es) == Keep(g, p, ds) + Keep(g, p, es)
    decreases |ds|
  {
    if ds == [] {
      assert ds + es == es;
    } else {
      assert (ds + es)[0] == ds[0];
      assert (ds + es)[1..] == ds[1..] + es;
      KeepAppend(g, p, ds[1..], es);
    }
  }

  /** `neighbors` in the carving loop. */
  function Candidates(g: Grid, p: Pos): seq<(int, int)> {
    Keep(g, p, CarveDirs)
  }

  /** No direction is left to carve from `p`. */
  predicate Saturated(g: Grid, p: Pos) {
    forall d :: d in CarveDirs ==> !Fresh(g, p, d)
  }

  /** The "room" cells the carver stands on: both coordinates odd, inside
      the border. */
  predicate Lattice(p: Pos) {
    1 <= p.x <= 13 && 1 <= p.y <= 13 && p.x % 2 == 1 && p.y % 2 == 1
  }

  /** Cells the carver can ever open: rooms and the passages between two
      rooms. Row and column 14 and the border never qualify. */
  predicate Carvable(p: Pos) {
    1 <= p.x <= 13 && 1 <= p.y <= 13 && (p.x % 2 == 1 || p.y % 2 == 1)
  }

  /** The invariant of the carving loop. */
  ghost predicate Carving(g: Grid, stack: seq<Pos>) {
    && WellFormed(g)
    && IsOpen(g, Start)
    && (forall p :: IsOpen(g, p) ==> Carvable(p))
    && (forall i :: 0 <= i < |stack| ==> Lattice(stack[i]) && IsOpen(g, stack[i]))
    && (forall p :: Lattice(p) && IsOpen(g, p) ==> p in stack || Saturated(g, p))
    && (forall p :: IsOpen(g, p) ==> Reachable(g, p))
  }

  /** The wall cells of the grid; carving only ever shrinks this set. */
  function Sealed(g: Grid): set<Pos> {
    set p | p in Cells() && IsWall(g, p)
  }

  /** Two units per wall plus one per stack entry: a carve removes a wall
      and pushes once, a pop removes an entry. */
  function Work(g: Grid, stack: seq<Pos>): nat {
    2 * |Sealed(g)| + |stack|
  }

  /** Opening a wall cell, and nothing else, shrinks `Sealed`. */
  lemma SealedShrinks(g: Grid, g': Grid, t: Pos)
    requires InGrid(t) && IsWall(g, t) && !IsWall(g', t)
    requires forall q :: IsWall(g', q) ==> IsWall(g, q)
    ensures |Sealed(g')| < |Sealed(g)|
  {
    CellsHold(t);
    assert Sealed(g') <= Sealed(g) - {t};
    SubsetCard(Sealed(g'), Sealed(g) - {t});
  }

  /** One turn of the carving loop: pop a saturated top, or carve towards
      a random fresh direction and push the new room. */
  method CarveStep(rng: Rng, draw: nat, g: Grid, stack: seq<Pos>) returns (g': Grid, stack': seq<Pos>, draw': nat)
    requires Uniform(rng)
    requires |stack| > 0
    requires Carving(g, stack) && Tree(g)
    ensures Carving(g', stack') && Tree(g')
    ensures Work(g', stack') < Work(g, stack)
    ensures draw <= draw'
  {
    var p := stack[|stack| - 1];
    var cands := Candidates(g, p);
    if |cands| == 0 {
      g', stack', draw' := g, stack[..|stack| - 1], draw;
      PopKeeps(g, stack);
    } else {
      var d := cands[Pick(rng(draw), |cands|)];
      assert d in CarveDirs && Fresh(g, p, d);
      var m := Shift(p, (d.0 / 2, d.1 / 2));
      var t := Shift(p, d);
      g' := Carve(Carve(g, m), t);
      stack' := stack + [t];
      draw' := draw + 1;
      CarveKeeps(g, g', stack, p, d, m, t);
      TreeKept(g, g', p, d, m, t);
      SealedShrinks(g, g', t);
    }
  }

  /** Where a carve from room `p` in direction `d` lands: the passage `m`
      and the room `t` both open, both walkable, and nothing else changes. */
  lemma CarveShape(g: Grid, g': Grid, p: Pos, d: (int, int), m: Pos, t: Pos)
    requires WellFormed(g) && Lattice(p)
    requires d in CarveDirs && Fresh(g, p, d)
    requires m == Shift(p, (d.0 / 2, d.1 / 2)) && t == Shift(p, d)
    requires g' == Carve(Carve(g, m), t)
    ensures WellFormed(g')
    ensures Lattice(t) && Carvable(m) && !Lattice(m)
    ensures Adjacent(p, m) && Adjacent(m, t)
    ensures Walkable(g', m) && Walkable(g', t)
    ensures InGrid(t) && IsWall(g, t) && !IsWall(g', t)
    ensures forall q :: IsOpen(g, q) ==> IsOpen(g', q)
    ensures forall q :: IsWall(g', q) ==> IsWall(g, q)
    ensures forall q :: IsOpen(g', q) && q != m && q != t ==> IsOpen(g, q)
  {
    JumpShape(p, d, m, t);
  }

  /** The arithmetic of one jump from a room: the cell jumped over is a
      passage next to both rooms. */
  lemma JumpShape(p: Pos, d: (int, int), m: Pos, t: Pos)
    requires Lattice(p) && d in CarveDirs && Interior(t)
    requires m == Shift(p, (d.0 / 2, d.1 / 2)) && t == Shift(p, d)
    ensures Lattice(t) && Carvable(m) && !Lattice(m) && Interior(m) && InGrid(m) && InGrid(t)
    ensures Adjacent(p, m) && Adjacent(m, t) && m != t
    ensures Flanks(m) == (p, t) || Flanks(m) == (t, p)
  {
    if d == (0, 2) {
      assert m == Pos(p.x, p.y + 1) && t == Pos(p.x, p.y + 2);
    } else if d == (2, 0) {
      assert m == Pos(p.x + 1, p.y) && t == Pos(p.x + 2, p.y);
    } else if d == (0, -2) {
      assert m == Pos(p.x, p.y - 1) && t == Pos(p.x, p.y - 2);
    } else {
      assert m == Pos(p.x - 1, p.y) && t == Pos(p.x - 2, p.y);
    }
  }

  /** The two rooms on either side of a passage cell: above and below it
      when its column is odd, left and right of it otherwise. */
  function Flanks(q: Pos): (r: (Pos, Pos))
    ensures Carvable(q) && !Lattice(q) ==>
              Lattice(r.0) && Lattice(r.1) && Adjacent(r.0, q) && Adjacent(q, r.1) && r.0 != r.1
  {
    if q.x % 2 == 1 then (Pos(q.x, q.y - 1), Pos(q.x, q.y + 1))
    else (Pos(q.x - 1, q.y), Pos(q.x + 1, q.y))
  }

  /** The open passage cells. */
  function Passages(g: Grid): set<Pos> {
    set q | q in Cells() && !Lattice(q) && IsOpen(g, q)
  }

  /** The open rooms. */
  function OpenRooms(g: Grid): set<Pos> {
    set q | q in Cells() && Lattice(q) && IsOpen(g, q)
  }

  /** The carve so far is a tree over the open rooms: every open passage
      joins two open rooms, and there is one passage fewer than rooms. */
  ghost predicate Tree(g: Grid) {
    && (forall q :: IsOpen(g, q) && !Lattice(q) ==> IsOpen(g, Flanks(q).0) && IsOpen(g, Flanks(q).1))
    && |Passages(g)| + 1 == |OpenRooms(g)|
  }

  /** The single open start room is a tree. */
  lemma TreeStarts(g: Grid)
    requires g == Carve(Filled(Wall), Start)
    ensures Tree(g)
  {
    CellsHold(Start);
    assert Passages(g) == {};
    assert OpenRooms(g) == {Start};
  }

  /** `g'` is `g` with exactly the passage `m` and the room `t` opened. */
  ghost predicate OpensTwo(g: Grid, g': Grid, m: Pos, t: Pos) {
    && InGrid(m) && !Lattice(m) && InGrid(t) && Lattice(t)
    && !IsOpen(g, m) && !IsOpen(g, t)
    && forall q :: IsOpen(g', q) <==> IsOpen(g, q) || q == m || q == t
  }

  /** Opening one passage and one room adds one to each count. */
  lemma CountsGrow(g: Grid, g': Grid, m: Pos, t: Pos)
    requires OpensTwo(g, g', m, t)
    ensures |Passages(g')| == |Passages(g)| + 1 && |OpenRooms(g')| == |OpenRooms(g)| + 1
  {
    CellsHold(m);
    CellsHold(t);
    assert Passages(g') == Passages(g) + {m};
    assert OpenRooms(g') == OpenRooms(g) + {t};
  }

  /** A carve adds one passage and one room, and the passage joins the room
      it came from to the room it reached: the tree stays a tree. */
  lemma TreeKept(g: Grid, g': Grid, p: Pos, d: (int, int), m: Pos, t: Pos)
    requires WellFormed(g) && Lattice(p) && IsOpen(g, p) && Tree(g)
    requires d in CarveDirs && Fresh(g, p, d)
    requires m == Shift(p, (d.0 / 2, d.1 / 2)) && t == Shift(p, d)
    requires g' == Carve(Carve(g, m), t)
    ensures Tree(g')
  {
    CarveShape(g, g', p, d, m, t);
    JumpShape(p, d, m, t);
    assert !IsOpen(g, t);
    assert IsOpen(g, m) ==> IsOpen(g, Flanks(m).0) && IsOpen(g, Flanks(m).1);
    assert OpensTwo(g, g', m, t);
    CountsGrow(g, g', m, t);
    forall q | IsOpen(g', q) && !Lattice(q)
      ensures IsOpen(g', Flanks(q).0) && IsOpen(g', Flanks(q).1)
    {
      if q != m {
        assert IsOpen(g, q);
      }
    }
  }

  /** Opening cells can only keep a room saturated. */
  lemma SaturatedGrows(g: Grid, g': Grid, q: Pos)
    requires Saturated(g, q)
    requires forall r :: IsWall(g', r) ==> IsWall(g, r)
    ensures Saturated(g', q)
  {
  }

  /** Why the carving branch keeps the loop invariant. */
  lemma CarveKeeps(g: Grid, g': Grid, stack: seq<Pos>, p: Pos, d: (int, int), m: Pos, t: Pos)
    requires Carving(g, stack)
    requires |stack| > 0 && p == stack[|stack| - 1]
    requires d in CarveDirs && Fresh(g, p, d)
    requires m == Shift(p, (d.0 / 2, d.1 / 2)) && t == Shift(p, d)
    requires g' == Carve(Carve(g, m), t)
    ensures Carving(g', stack + [t])
    ensures forall q :: IsWall(g', q) ==> IsWall(g, q)
    ensures IsWall(g, t) && !IsWall(g', t) && InGrid(t)
  {
    CarveShape(g, g', p, d, m, t);
    StackKept(g, g', stack, t);
    RoomsKept(g, g', stack, m, t);
    ReachKept(g, g', p, m, t);
    forall q | IsOpen(g', q)
      ensures Carvable(q)
    {
      if q != m && q != t {
        assert IsOpen(g, q);
      }
    }
  }

  lemma StackKept(g: Grid, g': Grid, stack: seq<Pos>, t: Pos)
    requires forall i :: 0 <= i < |stack| ==> Lattice(stack[i]) && IsOpen(g, stack[i])
    requires forall q :: IsOpen(g, q) ==> IsOpen(g', q)
    requires Lattice(t) && IsOpen(g', t)
    ensures forall i :: 0 <= i < |stack + [t]| ==> Lattice((stack + [t])[i]) && IsOpen(g', (stack + [t])[i])
  {
    forall i | 0 <= i < |stack + [t]|
      ensures Lattice((stack + [t])[i]) && IsOpen(g', (stack + [t])[i])
    {
      if i < |stack| {
        assert (stack + [t])[i] == stack[i];
      }
    }
  }

  lemma RoomsKept(g: Grid, g': Grid, stack: seq<Pos>, m: Pos, t: Pos)
    requires forall p :: Lattice(p) && IsOpen(g, p) ==> p in stack || Saturated(g, p)
    requires !Lattice(m)
    requires forall q :: IsWall(g', q) ==> IsWall(g, q)
    requires forall q :: IsOpen(g', q) && q != m && q != t ==> IsOpen(g, q)
    ensures forall p :: Lattice(p) && IsOpen(g', p) ==> p in stack + [t] || Saturated(g', p)
  {
    forall q | Lattice(q) && IsOpen(g', q) && q != t && q !in stack
      ensures Saturated(g', q)
    {
      SaturatedGrows(g, g', q);
    }
  }

  lemma ReachKept(g: Grid, g': Grid, p: Pos, m: Pos, t: Pos)
    requires forall q :: IsOpen(g, q) ==> Reachable(g, q)
    requires IsOpen(g, p)
    requires Adjacent(p, m) && Adjacent(m, t)
    requires Walkable(g', m) && Walkable(g', t)
    requires forall q :: IsOpen(g, q) ==> IsOpen(g', q)
    requires forall q :: IsOpen(g', q) && q != m && q != t ==> IsOpen(g, q)
    ensures forall q :: IsOpen(g', q) ==> Reachable(g', q)
  {
    ReachableGrows(g, g', p);
    ExtendReach(g', p, m);
    ExtendReach(g', m, t);
    forall q | IsOpen(g', q) && q != t && q != m
      ensures Reachable(g', q)
    {
      ReachableGrows(g, g', q);
    }
  }

  /** Why the popping branch keeps the loop invariant. */
  lemma PopKeeps(g: Grid, stack: seq<Pos>)
    requires Carving(g, stack)
    requires |stack| > 0 && Saturated(g, stack[|stack| - 1])
    ensures Carving(g, stack[..|stack| - 1])
  {
    var stack' := stack[..|stack| - 1];
    forall i | 0 <= i < |stack'|
      ensures Lattice(stack'[i]) && IsOpen(g, stack'[i])
    {
      assert stack'[i] == stack[i];
    }
    forall q | Lattice(q) && IsOpen(g, q)
      ensures q in stack' || Saturated(g, q)
    {
      if q in stack {
        var i :| 0 <= i < |stack| && stack[i] == q;
        if i < |stack| - 1 {
          assert stack'[i] == q;
        }
      }
    }
  }

  lemma ExtendReach(g: Grid, p: Pos, q: Pos)
    requires Reachable(g, p)
    requires Walkable(g, q) && Adjacent(p, q)
    ensures Reachable(g, q)
  {
    var n := ReachableSomeLength(g, p);
    ExtendRoute(g, p, n, q);
  }

  /** The carving half of `generateMaze` (script.js:60-82): walls everywhere,
      then a depth-first walk from the start that knocks out the wall
      between two rooms whenever it steps to an uncarved room. Each carve
      consumes one `Math.random()` draw, starting at `draw`. */
  method CarveMaze(rng: Rng, draw: nat) returns (g: Grid, draw': nat)
    requires Uniform(rng)
    ensures WellFormed(g)
    // only rooms and passages open: the border, row 14 and column 14 stay solid
    ensures forall p :: IsOpen(g, p) ==> Carvable(p)
    // every room is carved
    ensures forall p :: Lattice(p) ==> IsOpen(g, p)
    // and everything carved hangs together with the start
    ensures forall p :: IsOpen(g, p) ==> Reachable(g, p)
    // the carve is a spanning tree of the rooms: each open passage joins
    // two open rooms, and passages number one fewer than rooms
    ensures forall q :: IsOpen(g, q) && !Lattice(q) ==> IsOpen(g, Flanks(q).0) && IsOpen(g, Flanks(q).1)
    ensures |Passages(g)| + 1 == |OpenRooms(g)|
    ensures draw <= draw'
  {
    g := Carve(Filled(Wall), Start);
    var stack := [Start];
    draw' := draw;
    Started(g);
    TreeStarts(g);
    while |stack| > 0
      invariant Carving(g, stack) && Tree(g)
      invariant draw <= draw'
      decreases Work(g, stack)
    {
      g, stack, draw' := CarveStep(rng, draw', g, stack);
    }
    forall p | Lattice(p)
      ensures IsOpen(g, p)
    {
      RoomsOpen(g, p);
    }
  }

  lemma Started(g: Grid)
    requires g == Carve(Filled(Wall), Start)
    ensures Carving(g, [Start])
  {
    StartReachable(g);
    forall p | IsOpen(g, p)
      ensures Reachable(g, p)
    {
      assert p == Start;
    }
  }

  /** Once every open room is saturated, every room is open: from the
      start, each room is one carve away from a room nearer the origin. */
  lemma {:induction false} RoomsOpen(g: Grid, p: Pos)
    requires WellFormed(g) && IsOpen(g, Start)
    requires forall q :: Lattice(q) && IsOpen(g, q) ==> Saturated(g, q)
    requires Lattice(p)
    ensures IsOpen(g, p)
    decreases p.x + p.y
  {
    if p != Start {
      var q, d;
      if p.x > 1 {
        q, d := Pos(p.x - 2, p.y), (2, 0);
      } else {
        q, d := Pos(p.x, p.y - 2), (0, 2);
      }
      RoomsOpen(g, q);
      assert d in CarveDirs && Shift(q, d) == p;
      assert !Fresh(g, q, d);
    }
  }

  /** `generateMaze(level)`: carve, then place the exit at the first
      cell of greatest search depth (script.js:59-108). */
  method GenerateMaze(rng: Rng, draw: nat) returns (g: Grid, exit: Visit, draw': nat)
    requires Uniform(rng)
    ensures WellFormed(g)
    ensures forall p :: IsOpen(g, p) ==> Carvable(p)
    ensures forall p :: Lattice(p) ==> IsOpen(g, p)
    ensures forall p :: IsOpen(g, p) ==> Reachable(g, p)
    // the exit is a walkable cell other than the start, at least as far
    // as the opposite room (13, 13)
    ensures exit.pos != Start && Walkable(g, exit.pos)
    ensures exit.depth >= Distance(Start, Pos(13, 13))
    ensures ReachableIn(g, exit.pos, exit.depth)
    // and no open cell is farther from the start than the exit
    ensures forall p :: IsOpen(g, p) ==> exists n: nat :: n <= exit.depth && ReachableIn(g, p, n)
    ensures forall n: nat :: ReachableIn(g, exit.pos, n) ==> exit.depth <= n
    ensures forall q :: IsOpen(g, q) && !Lattice(q) ==> IsOpen(g, Flanks(q).0) && IsOpen(g, Flanks(q).1)
    ensures |Passages(g)| + 1 == |OpenRooms(g)|
    ensures draw <= draw'
  {
    g, draw' := CarveMaze(rng, draw);
    var order;
    exit, order := FindExit(g);
    var corner := Pos(13, 13);
    assert Lattice(corner);
    ghost var n := ReachableSomeLength(g, corner);
    ghost var i :| 0 <= i < |order| && order[i].pos == corner && order[i].depth <= n;
    RouteCoversDistance(g, corner, order[i].depth);
    ghost var j :| 0 <= j < |order| && order[j] == exit && forall k :: 0 <= k < j ==> order[k].depth < exit.depth;
    assert exit.depth > 0;
    if j > 0 {
      assert order[0].pos != order[j].pos;
    }
  }
}

=== FILE: movement.dfy ===
/** Player movement in the frame loop: the `canMove` footprint test and the
    four key branches that commit the x and y parts of a step one at a time. */
module Movement {
  import opened Common
  import opened Grid

  /** `player`: position in maze units, view angle, and the angle of the
      last accepted move (absent until the first one). */
  datatype Player = Player(x: real, y: real, angle: real, lastMoveAngle: Option<real>)

  /** `buffer`: half the side of the square footprint that must stay clear. */
  const Buffer: real := 0.18

  /** `player.speed`, in cells per second. */
  const Speed: real := 3.0

  /** The cell row or column a coordinate falls in: `Math.floor`. */
  function CellOf(v: real): int {
    v.Floor
  }

  /** `maze[row]` exists, so that indexing into it does not throw. */
  predicate RowExists(g: Grid, row: int) {
    0 <= row < |g|
  }

  /** The four footprint corners of a player centred at `(x, y)` are open. */
  predicate Clear(g: Grid, x: real, y: real) {
    && IsOpen(g, Pos(CellOf(x - Buffer), CellOf(y - Buffer)))
    && IsOpen(g, Pos(CellOf(x + Buffer), CellOf(y - Buffer)))
    && IsOpen(g, Pos(CellOf(x - Buffer), CellOf(y + Buffer)))
    && IsOpen(g, Pos(CellOf(x + Buffer), CellOf(y + Buffer)))
  }

  /** `canMove(nx, ny)` as JavaScript evaluates it: the `&&` chain stops at
      the first corner that is not floor; reading a column of a row that does
      not exist throws, while a column past the end of a row reads
      `undefined`, which is not `0`. */
  function CanMove(g: Grid, nx: real, ny: real): Outcome<bool> {
    var top, bottom := CellOf(ny - Buffer), CellOf(ny + Buffer);
    var left, right := CellOf(nx - Buffer), CellOf(nx + Buffer);
    if !RowExists(g, top) then TypeError
    else if !IsOpen(g, Pos(left, top)) then Done(false)
    else if !IsOpen(g, Pos(right, top)) then Done(false)
    else if !RowExists(g, bottom) then TypeError
    else Done(IsOpen(g, Pos(left, bottom)) && IsOpen(g, Pos(right, bottom)))
  }

  /** `canMove` answers yes exactly when all four corners are open, and it
      can only throw when one of the two rows it reads is missing. */
  lemma CanMoveMeansClear(g: Grid, nx: real, ny: real)
    ensures CanMove(g, nx, ny) == Done(true) <==> Clear(g, nx, ny)
    ensures CanMove(g, nx, ny) == TypeError ==>
              !RowExists(g, CellOf(ny - Buffer)) || !RowExists(g, CellOf(ny + Buffer))
  {
  }

  /** A player standing in the middle of an open cell is clear of walls. */
  lemma CentreIsClear(g: Grid, p: Pos)
    requires IsOpen(g, p)
    ensures Clear(g, p.x as real + 0.5, p.y as real + 0.5)
  {
    var x, y := p.x as real + 0.5, p.y as real + 0.5;
    assert CellOf(x - Buffer) == p.x && CellOf(x + Buffer) == p.x;
    assert CellOf(y - Buffer) == p.y && CellOf(y + Buffer) == p.y;
  }

  /** `generateMaze` puts the player back on `startPoint`, the centre of the
      start cell, and leaves the heading alone. */
  function Respawn(p: Player): (p': Player)
    ensures CellOf(p'.x) == Start.x && CellOf(p'.y) == Start.y
    ensures p'.angle == p.angle && p'.lastMoveAngle == p.lastMoveAngle
  {
    p.(x := 1.5, y := 1.5)
  }

  /** In a maze whose start cell is open, the respawned player stands clear
      of every wall. */
  lemma RespawnIsClear(g: Grid, p: Player)
    requires IsOpen(g, Start)
    ensures Clear(g, Respawn(p).x, Respawn(p).y)
  {
    CentreIsClear(g, Start);
  }

  /** One key branch: try the x part of the step against the current y,
      then the y part against the possibly updated x. `face` is the angle
      recorded when either part is accepted. */
  function Branch(g: Grid, p: Player, dx: real, dy: real, face: real): (r: Outcome<Player>)
    ensures r.Done? ==> r.value.angle == p.angle
    ensures r.Done? ==> r.value.x == (if Clear(g, p.x + dx, p.y) then p.x + dx else p.x)
    ensures r.Done? ==> r.value.y == (if Clear(g, r.value.x, p.y + dy) then p.y + dy else p.y)
    ensures r.Done? ==> (r.value.lastMoveAngle ==
              if Clear(g, p.x + dx, p.y) || Clear(g, r.value.x, p.y + dy) then Some(face) else p.lastMoveAngle)
    ensures r.TypeError? ==>
              || !RowExists(g, CellOf(p.y - Buffer)) || !RowExists(g, CellOf(p.y + Buffer))
              || !RowExists(g, CellOf(p.y + dy - Buffer)) || !RowExists(g, CellOf(p.y + dy + Buffer))
  {
    var nx, ny := p.x + dx, p.y + dy;
    CanMoveMeansClear(g, nx, p.y);
    match CanMove(g, nx, p.y)
    case TypeError => TypeError
    case Done(okX) =>
      var p1 := if okX then p.(x := nx, lastMoveAngle := Some(face)) else p;
      CanMoveMeansClear(g, p1.x, ny);
      match CanMove(g, p1.x, ny)
      case TypeError => TypeError
      case Done(okY) =>
        Done(if okY then p1.(y := ny, lastMoveAngle := Some(face)) else p1)
  }

  /** Moving never walks the player into a wall: from a clear position, a
      branch that does not throw ends at a clear position. */
  lemma BranchStaysClear(g: Grid, p: Player, dx: real, dy: real, face: real)
    requires Clear(g, p.x, p.y)
    requires Branch(g, p, dx, dy, face).Done?
    ensures Clear(g, Branch(g, p, dx, dy, face).value.x, Branch(g, p, dx, dy, face).value.y)
  {
  }

  /** Every open cell of the carved maze lies in rows and columns 1 to 14. */
  ghost predicate Walled(g: Grid) {
    WellFormed(g) && forall q :: IsOpen(g, q) ==> 1 <= q.x <= W - 2 && 1 <= q.y <= H - 2
  }

  /** From a clear position, a step of at most one cell along y cannot make
      `canMove` read a missing row, so the branch never throws. */
  lemma BranchNeverThrows(g: Grid, p: Player, dx: real, dy: real, face: real)
    requires Walled(g)
    requires Clear(g, p.x, p.y)
    requires -1.0 <= dy <= 1.0
    ensures Branch(g, p, dx, dy, face).Done?
  {
    assert IsOpen(g, Pos(CellOf(p.x - Buffer), CellOf(p.y - Buffer)));
    assert IsOpen(g, Pos(CellOf(p.x - Buffer), CellOf(p.y + Buffer)));
    assert CellOf(p.y + dy - Buffer) >= CellOf(p.y - Buffer) - 1;
    assert CellOf(p.y + dy + Buffer) <= CellOf(p.y + Buffer) + 1;
  }

  /** A long frame can throw: standing in the start cell, a step of two
      cells towards row 0 makes `canMove` read `maze[-1]`. */
  lemma LongStepThrows(g: Grid, face: real)
    requires WellFormed(g) && IsOpen(g, Start)
    ensures Clear(g, 1.5, 1.5)
    ensures Branch(g, Player(1.5, 1.5, 0.0, None), 0.0, -2.0, face) == TypeError
  {
    CentreIsClear(g, Start);
    assert CellOf(1.5 - Buffer) == 1 && CellOf(1.5 + Buffer) == 1;
    assert CellOf(-0.5 - Buffer) == -1;
  }

  /** `input.keys` entries that are down; `KeyW` or `ArrowUp`, etc. */
  type Keys = set<string>

  predicate Forward(keys: Keys) { "KeyW" in keys || "ArrowUp" in keys }
  predicate Back(keys: Keys) { "KeyS" in keys || "ArrowDown" in keys }
  predicate Left(keys: Keys) { "KeyA" in keys || "ArrowLeft" in keys }
  predicate Right(keys: Keys) { "KeyD" in keys || "ArrowRight" in keys }

  /** A branch that runs only while its keys are held, after the earlier
      branches of the same frame. */
  function Maybe(g: Grid, held: bool, r: Outcome<Player>, dx: real, dy: real, face: real): (r': Outcome<Player>)
    ensures r.TypeError? ==> r'.TypeError?
    ensures !held ==> r' == r
    ensures r'.Done? ==> r'.value.angle == r.value.angle
    ensures r'.Done? && Clear(g, r.value.x, r.value.y) ==> Clear(g, r'.value.x, r'.value.y)
    ensures Walled(g) && r.Done? && Clear(g, r.value.x, r.value.y) && -1.0 <= dy <= 1.0 ==> r'.Done?
  {
    match r
    case TypeError => TypeError
    case Done(p) =>
      if held then
        BranchStaysClearIfDone(g, p, dx, dy, face);
        BranchNeverThrowsIf(g, p, dx, dy, face);
        Branch(g, p, dx, dy, face)
      else Done(p)
  }

  lemma BranchNeverThrowsIf(g: Grid, p: Player, dx: real, dy: real, face: real)
    ensures Walled(g) && Clear(g, p.x, p.y) && -1.0 <= dy <= 1.0 ==> Branch(g, p, dx, dy, face).Done?
  {
    if Walled(g) && Clear(g, p.x, p.y) && -1.0 <= dy <= 1.0 {
      BranchNeverThrows(g, p, dx, dy, face);
    }
  }

  lemma BranchStaysClearIfDone(g: Grid, p: Player, dx: real, dy: real, face: real)
    ensures Branch(g, p, dx, dy, face).Done? && Clear(g, p.x, p.y) ==>
              Clear(g, Branch(g, p, dx, dy, face).value.x, Branch(g, p, dx, dy, face).value.y)
  {
    if Branch(g, p, dx, dy, face).Done? && Clear(g, p.x, p.y) {
      BranchStaysClear(g, p, dx, dy, face);
    }
  }

  /** The per-axis steps of the forward (`W`), left (`A`) and right (`D`)
      branches; the back branch (`S`) subtracts the forward step. */
  datatype Steps = Steps(fx: real, fy: real, lx: real, ly: real, rx: real, ry: real)

  /** `Math.cos(angle)*move`, `Math.sin(angle-Math.PI/2)*move`, and so on. */
  function StepsAt(trig: Trig, a: real, move: real): Steps {
    Steps(trig.cos(a) * move, trig.sin(a) * move,
          trig.cos(a - Pi / 2.0) * move, trig.sin(a - Pi / 2.0) * move,
          trig.cos(a + Pi / 2.0) * move, trig.sin(a + Pi / 2.0) * move)
  }

  /** The four key branches in source order (W/Up, S/Down, A/Left,
      D/Right), each facing its own direction. Walking never takes a clear
      player into a wall. */
  function Walk(g: Grid, p: Player, keys: Keys, d: Steps): (r: Outcome<Player>)
    ensures r.Done? ==> r.value.angle == p.angle
    ensures keys == {} ==> r == Done(p)
    ensures r.Done? && Clear(g, p.x, p.y) ==> Clear(g, r.value.x, r.value.y)
    // a step of at most one cell along y never throws from a clear position
    ensures (Walled(g) && Clear(g, p.x, p.y) && -1.0 <= d.fy <= 1.0 && -1.0 <= d.ly <= 1.0 && -1.0 <= d.ry <= 1.0)
            ==> r.Done?
  {
    var a := p.angle;
    var afterW := Maybe(g, Forward(keys), Done(p), d.fx, d.fy, a);
    var afterS := Maybe(g, Back(keys), afterW, -d.fx, -d.fy, a + Pi);
    var afterA := Maybe(g, Left(keys), afterS, d.lx, d.ly, a - Pi / 2.0);
    Maybe(g, Right(keys), afterA, d.rx, d.ry, a + Pi / 2.0)
  }

  /** `Math.sin` stays within [-1, 1]. */
  ghost predicate SaneSine(trig: Trig) {
    forall t :: -1.0 <= trig.sin(t) <= 1.0
  }

  lemma ScaledSine(s: real, move: real)
    requires -1.0 <= s <= 1.0 && 0.0 <= move <= 1.0
    ensures -1.0 <= s * move <= 1.0
  {
    if s >= 0.0 {
      assert s * move <= 1.0 * move;
    } else {
      assert (-s) * move <= 1.0 * move;
    }
  }

  /** With a sane sine, steps of at most one cell come out of any `move`
      in [0, 1], which covers every frame of at most a third of a second. */
  lemma ShortStepsStayShort(trig: Trig, a: real, move: real)
    requires SaneSine(trig)
    requires 0.0 <= move <= 1.0
    ensures var d := StepsAt(trig, a, move);
            -1.0 <= d.fy <= 1.0 && -1.0 <= d.ly <= 1.0 && -1.0 <= d.ry <= 1.0
  {
    ScaledSine(trig.sin(a), move);
    ScaledSine(trig.sin(a - Pi / 2.0), move);
    ScaledSine(trig.sin(a + Pi / 2.0), move);
  }

  /** `player.angle += input.mouseDX * 0.002`. */
  function Steer(p: Player, mouseDX: real): (p': Player)
    ensures p'.x == p.x && p'.y == p.y && p'.lastMoveAngle == p.lastMoveAngle
    ensures p'.angle - p.angle == mouseDX / 500.0
  {
    p.(angle := p.angle + mouseDX * 0.002)
  }
}

=== FILE: session.dfy ===
/** The session state machine: the five variables the page keeps between
    events, and how the start click, the Escape key, the one-second timer,
    the end-of-frame completion check and the EXIT button change them. */
module Session {

  /** `score, level, timeLeft, gameStarted, gamePaused`. */
  datatype Session = Session(score: nat, level: int, timeLeft: int, started: bool, paused: bool)

  const MaxLevel: int := 2
  /** Seconds granted per level; entry `level - 1` is used at start. */
  const LevelTimes: seq<int> := [120, 120]

  /** The values the page starts with. */
  const Initial: Session := Session(0, 1, 120, false, false)

  /** What holds in every reachable state: the level indexes `LevelTimes`,
      the clock is not negative, and only a started game is paused. */
  predicate Valid(s: Session) {
    && 1 <= s.level <= MaxLevel
    && s.timeLeft >= 0
    && (s.paused ==> s.started)
  }

  /** The click listener: ignored while a game runs; otherwise starts the
      current level with its full time. The maze and enemies it also builds
      live in their own modules. */
  function Click(s: Session): (s': Session)
    requires 1 <= s.level <= |LevelTimes|
    ensures s.started ==> s' == s
    ensures !s.started ==> s'.started && !s'.paused && s'.timeLeft == 120
    ensures s'.score == s.score && s'.level == s.level
  {
    if s.started then s
    else s.(started := true, paused := false, timeLeft := LevelTimes[s.level - 1])
  }

  /** The first Escape listener: pause a running game, or resume a paused
      one. */
  function TogglePause(s: Session): (s': Session)
    ensures s.started && !s.paused ==> s' == s.(paused := true)
    ensures s.paused ==> s' == s.(paused := false)
    ensures !s.started && !s.paused ==> s' == s
  {
    if s.started && !s.paused then s.(paused := true)
    else if s.paused then s.(paused := false)
    else s
  }

  /** The second Escape listener, on the menu: back to level 1 with no
      score. */
  function MenuReset(s: Session): (s': Session)
    ensures !s.started && !s.paused ==> s'.level == 1 && s'.score == 0
    ensures s.started || s.paused ==> s' == s
    ensures s'.started == s.started && s'.paused == s.paused && s'.timeLeft == s.timeLeft
  {
    if !s.started && !s.paused then s.(level := 1, score := 0) else s
  }

  /** One Escape key press runs both listeners in registration order, the
      second seeing what the first left. */
  function Escape(s: Session): (s': Session)
    ensures s.started ==> s' == s.(paused := !s.paused)
    ensures !s.started && !s.paused ==> s' == s.(level := 1, score := 0)
  {
    MenuReset(TogglePause(s))
  }

  /** The `setInterval` callback: counts a running, unpaused clock down,
      and ends the game when it is already at zero. */
  function Tick(s: Session): (s': Session)
    ensures !s.started || s.paused ==> s' == s
    ensures s.started && !s.paused && s.timeLeft > 0 ==> s' == s.(timeLeft := s.timeLeft - 1)
    ensures s.started && !s.paused && s.timeLeft <= 0 ==> s' == s.(started := false)
    ensures s.timeLeft >= 0 ==> s'.timeLeft >= 0
  {
    if !s.started || s.paused then s
    else if s.timeLeft > 0 then s.(timeLeft := s.timeLeft - 1)
    else s.(started := false)
  }

  /** The level-complete block at the end of a frame, reached only while
      the game runs. `cleared` is "every enemy is dead and the player is
      within 1 of the exit". */
  function Complete(s: Session, cleared: bool): (s': Session)
    ensures !cleared ==> s' == s
    ensures cleared ==> !s'.started && s'.paused == s.paused && s'.timeLeft == s.timeLeft
    ensures cleared && s.level >= MaxLevel ==> s'.level == 1 && s'.score == 0
    ensures cleared && s.level < MaxLevel ==> s'.level == s.level + 1 && s'.score == s.score
  {
    if !cleared then s
    else if s.level >= MaxLevel then s.(started := false, level := 1, score := 0)
    else s.(started := false, level := s.level + 1)
  }

  /** One animation frame: nothing happens unless the game runs; then the
      bullets score `kills` and the completion check looks at the result. */
  function Frame(s: Session, kills: nat, cleared: bool): (s': Session)
    ensures !s.started || s.paused ==> s' == s
    ensures s.started && !s.paused && !cleared ==> s' == s.(score := s.score + kills)
    ensures s.started && !s.paused && cleared && s.level < MaxLevel ==>
              s' == s.(started := false, level := s.level + 1, score := s.score + kills)
    ensures s.started && !s.paused && cleared && s.level >= MaxLevel ==>
              s' == s.(started := false, level := 1, score := 0)
  {
    if !s.started || s.paused then s
    else Complete(s.(score := s.score + kills), cleared)
  }

  /** The EXIT button, which only answers while the game runs and the
      click lands inside it. */
  function Exit(s: Session, onButton: bool): (s': Session)
    ensures s.started && !s.paused && onButton ==> !s'.started && !s'.paused
    ensures !(s.started && !s.paused && onButton) ==> s' == s
    ensures s'.score == s.score && s'.level == s.level && s'.timeLeft == s.timeLeft
  {
    if s.started && !s.paused && onButton then s.(started := false, paused := false) else s
  }

  /** What one press on the EXIT button does as the page is wired: the
      press is a `mousedown` (the fire listener and the EXIT listener run,
      and the EXIT listener stops the game) and then a `click` on the
      document, whose listener now finds the game stopped and starts the
      level again. */
  function ExitPress(s: Session): (s': Session)
    requires 1 <= s.level <= |LevelTimes|
    ensures s'.started
    ensures s'.score == s.score && s'.level == s.level
  {
    Click(Exit(s, true))
  }

  /** As written, pressing EXIT in a running game never reaches the menu:
      the game is running again, unpaused, with the level's full time. */
  lemma ExitRestarts(s: Session)
    requires Valid(s) && s.started && !s.paused
    ensures ExitPress(s) == s.(timeLeft := LevelTimes[s.level - 1])
    ensures ExitPress(s).started && ExitPress(s) != Exit(s, true)
  {
  }

  /** The EXIT listener alone, as its own comment intends: the press leaves
      the game on the menu, with score, level and clock kept, and the next
      Escape there resets to level 1. */
  lemma ExitReachesMenu(s: Session)
    requires Valid(s) && s.started && !s.paused
    ensures Valid(Exit(s, true)) && !Exit(s, true).started
    ensures Escape(Exit(s, true)) == s.(started := false, level := 1, score := 0)
  {
  }

  datatype Event = ClickEv | EscapeEv | TickEv | FrameEv(kills: nat, cleared: bool) | ExitEv(onButton: bool)

  function Step(s: Session, e: Event): (s': Session)
    requires Valid(s)
    ensures Valid(s')
    ensures s'.score >= s.score || (s'.level == 1 && s'.score == 0)
  {
    match e
    case ClickEv => Click(s)
    case EscapeEv => Escape(s)
    case TickEv => Tick(s)
    case FrameEv(k, c) => Frame(s, k, c)
    case ExitEv(b) => Exit(s, b)
  }

  /** Every state reached from a valid one is valid, so `LevelTimes` is
      always indexed in range at a start click. */
  function Run(s: Session, es: seq<Event>): (s': Session)
    requires Valid(s)
    ensures Valid(s')
    ensures 1 <= s'.level <= |LevelTimes|
    decreases |es|
  {
    if es == [] then s else Run(Step(s, es[0]), es[1..])
  }

  lemma InitialValid()
    ensures Valid(Initial)
  {
  }

  /** Running two traces one after the other is running their join. */
  lemma {:induction false} RunAppend(s: Session, a: seq<Event>, b: seq<Event>)
    requires Valid(s)
    ensures Run(s, a + b) == Run(Run(s, a), b)
    decreases |a|
  {
    if a == [] {
      assert a + b == b;
    } else {
      assert (a + b)[1..] == a[1..] + b;
      RunAppend(Step(s, a[0]), a[1..], b);
    }
  }

  /** Escape twice in a running game returns to the same state. */
  lemma EscapeTwice(s: Session)
    requires Valid(s) && s.started
    ensures Escape(Escape(s)) == s
  {
  }

  /** Pausing happens only in a started game; on the menu Escape resets. */
  lemma EscapeOnMenu(s: Session)
    requires Valid(s) && !s.started
    ensures Escape(s) == s.(level := 1, score := 0)
    ensures !Escape(s).paused
  {
  }

  /** A paused game is frozen: the timer, frames and clicks change nothing. */
  lemma PausedFrozen(s: Session, kills: nat, cleared: bool)
    requires Valid(s) && s.paused
    ensures Tick(s) == s && Frame(s, kills, cleared) == s && Click(s) == s
  {
  }

  /** `n` ticks. */
  function Ticks(n: nat): (es: seq<Event>)
    ensures |es| == n && forall i :: 0 <= i < n ==> es[i] == TickEv
  {
    seq(n, i => TickEv)
  }

  /** A running game with `t` seconds left is over after exactly `t + 1`
      ticks, with the clock at zero and the score and level untouched. */
  lemma {:induction false} TimesOut(s: Session)
    requires Valid(s) && s.started && !s.paused
    ensures Run(s, Ticks(s.timeLeft + 1)) == s.(timeLeft := 0, started := false)
    decreases s.timeLeft
  {
    var ts := Ticks(s.timeLeft + 1);
    assert ts[1..] == Ticks(s.timeLeft);
    if s.timeLeft == 0 {
      assert Run(s, ts) == Run(Tick(s), []);
    } else {
      var s1 := Tick(s);
      assert Ticks(s.timeLeft) == Ticks(s1.timeLeft + 1);
      TimesOut(s1);
    }
  }

  /** The clock still runs after `t` ticks: the game is not over early. */
  lemma {:induction false} StillRunning(s: Session, n: nat)
    requires Valid(s) && s.started && !s.paused && n <= s.timeLeft
    ensures Run(s, Ticks(n)) == s.(timeLeft := s.timeLeft - n)
    decreases n
  {
    if n > 0 {
      assert Ticks(n)[1..] == Ticks(n - 1);
      StillRunning(Tick(s), n - 1);
    }
  }

  /** Finishing the last level starts everything over; finishing an earlier
      one moves on while keeping the score. */
  lemma FinalLevelResets(s: Session, kills: nat)
    requires Valid(s) && s.started && !s.paused
    ensures s.level == MaxLevel ==> Frame(s, kills, true) == Initial.(timeLeft := s.timeLeft)
    ensures s.level < MaxLevel ==>
              (Frame(s, kills, true).level == s.level + 1 && Frame(s, kills, true).score == s.score + kills)
  {
  }

  /** After a click on the menu, the time on the clock is that level's
      allowance. */
  lemma ClickStartsClock(s: Session)
    requires Valid(s) && !s.started
    ensures Click(s).timeLeft == LevelTimes[s.level - 1] && Valid(Click(s))
  {
  }
}
